=== FILE: README.md ===
# resizecbz, modelled in Dafny

`resizecbz.py` shrinks the page images inside comic-book archives (`.cbz`,
zip files of pictures). This project models the core of that program and
proves properties of the model:

- **the entry loop** (`resize`): walk the archive's names in order. The
  whole archive is refused at the first name whose lower-cased extension is
  not `.jpg`, `.jpeg`, `.png` or `.gif`, or whose data the image library
  cannot read. Every other page is shrunk into the landscape box when it is
  wider than tall, and into the portrait box otherwise. It is then written
  under its own name;
- **the publish step** (`resizeZippedImages`): write the resized archive to
  `output + ".0bd15818604b995cd9c00825a4c692d5d.temp"`, and rename it onto
  the output path once the archive is closed. A `ValueError` (from the entry
  loop, or from entry names the zip reader cannot decode) is logged and
  swallowed. Any other exception is logged, the temporary file and the
  output path are removed, and the exception is raised again;
- **the per-path driver** (`resizeCbz`): five validation checks in order,
  the output path (stem + configured extension, optionally moved into the
  output directory), and the skip when that path already exists;
- **the batch loop** of `main`: each argument is expanded through the
  file-name matcher when it contains `*` or `?`. A `ValueError` for one path
  is logged and the loop goes on; anything else ends the batch.

Modules, one per file:

| file | module | models |
|---|---|---|
| `errors.dfy` | `Errors` | the exceptions (`ValueError` reasons, unexpected faults), `Option`, `Result` |
| `paths.dfy` | `Paths` | `os.path.splitext`, `basename`, the head of `split`, two-argument `join`, `str.lower`/`startswith`/`endswith` |
| `images.dfy` | `Images` | page sizes, the two square boxes, the no-enlarge "thumbnail" shrink |
| `archives.dfy` | `Archives` | archive entries and the entry loop `resize` |
| `filesystem.dfy` | `FileSystems` | a file system as a map from path to directory or file, and `makedirs`, `remove`, `rename`, zip open for reading and writing |
| `publisher.dfy` | `Publisher` | `resizeZippedImages`: temporary path, `try` block, both `except` branches |
| `driver.dfy` | `Driver` | `resizeCbz` and the batch loop of `main` |

Each operation is a pure function from the file-system state to a
`Report`. A report holds the new state, the error-log lines written (path
and exception), and the exception that escapes, if any. The image library,
the zip library and the operating system are replaced as follows:

- A decoded entry is `Image(format, size)`; `Undecodable` when the image
  library fails with an error other than `ValueError`; `Malformed` when it
  refuses the data with a `ValueError`.
- An archive is the sequence of its entries. A file may instead hold an
  archive whose entry names the zip reader cannot decode (a name flagged as
  UTF-8 whose bytes are not), which raises a `ValueError` on opening, or no
  archive at all.
- The file-name matcher is a function parameter that sees the current
  file system.

### Two consequences of the code

- A rejected archive leaves its partly written temporary file behind. The
  `except ValueError` branch (`resizecbz.py:84-85`) only logs, so nothing
  removes it. `Publisher.UnsupportedEntryLeavesTemp` proves that it stays,
  and what it holds.
- A page is shrunk whenever either side exceeds its box. An 800×1200 page
  under the 1080×1080 portrait box becomes 720×1080. `Images.ScenarioSizes`
  proves this.

## Model

| member | source | states |
|---|---|---|
| Paths.SplitExtShape | resizecbz.py:106 | `splitext`: root followed by extension gives back the path; a non-empty extension starts with its only `.`, holds no `/`, and follows a final component with something other than dots before it; an empty extension means the last `.` is not in the final component or only dots precede it there |
| Paths.SplitExtFound | resizecbz.py:106 | an extension is found iff the final component holds a `.` with something other than a dot somewhere before it |
| Paths.SplitExtExamples | resizecbz.py:37 | only the last extension is split off, and its case is kept (`x.y.gif` → `x.y` + `.gif`, `1.JPG` → `1` + `.JPG`) |
| Paths.NoExtExamples | resizecbz.py:37 | a hidden file (`a/.cbz`) and a dot inside a directory name (`v.2/p`) give no extension |
| Paths.SplitExt | resizecbz.py:106 | `splitext`: the extension runs from the last `.` of the final component, unless only dots come before that `.` in the component; its properties are stated by `Paths.SplitExtShape` and `Paths.SplitExtFound` |
| Paths.Lower | resizecbz.py:107 | lower-casing keeps the length and folds each character on its own |
| Paths.LowerExtIsSuffix | resizecbz.py:107 | the lower-cased extension is a suffix of the lower-cased path |
| Paths.Basename | resizecbz.py:125 | the base name holds no `/` and is a suffix of the path |
| Paths.BasenameAppend | resizecbz.py:121-125 | appending `/`-free text to a path appends it to the base name |
| Paths.Head | resizecbz.py:77 | the directory half of `split`: a prefix of the path reaching at most to its last `/`, followed there only by slashes, and ending in something other than `/` unless it is all slashes and reaches that last `/` |
| Paths.DirectoryHalfIsUnique | resizecbz.py:77 | exactly one text has those properties, so they determine the directory `makedirs` is asked to create |
| Paths.HeadOfJoin | resizecbz.py:77 | the directory half of a `/`-free name joined onto a directory without a trailing `/` is that directory, so line 77 creates the configured output directory |
| Paths.HeadShorter | resizecbz.py:77 | the directory half of a path that is not all slashes is strictly shorter than the path |
| Paths.Join | resizecbz.py:124-125 | joining a directory with a relative name starts with the directory, ends with the name, and has that name as base name when it has no `/` |
| Images.SquareBounds | resizecbz.py:71-74 | both boxes are squares whose side is the configured integer |
| Images.ChooseBox | resizecbz.py:56-57 | a wider-than-tall page gets the landscape box; any other page, square included, gets the portrait box |
| Images.Thumbnail | resizecbz.py:43-57 | the shrink never enlarges, fits the box, leaves a fitting page unchanged, makes a non-fitting page meet the box on one side, and keeps the aspect ratio to within one pixel |
| Images.ScaleSide | resizecbz.py:56-57 | when one side's bound is the tighter, that side exceeds it, and any positive length within one pixel of the other side scaled in proportion fits that side and its bound |
| Images.RoundNearer | resizecbz.py:56-57 | the library's rounding with the height fixed gives a positive width within one pixel of the exact scaled width |
| Images.RoundNearerIsNearest | resizecbz.py:56-57 | no positive width is nearer to the exact scaled width than the one chosen |
| Images.RoundByRatio | resizecbz.py:56-57 | the library's rounding with the width fixed gives a positive height within one pixel of the exact scaled height |
| Images.RoundByRatioIsNearest | resizecbz.py:56-57 | no positive height gives a width-to-height ratio nearer to the page's than the one chosen |
| Images.ScaleToHeight | resizecbz.py:56-57 | when the height bound binds, the new height is the bound, and the width is the positive whole number nearest to the exact proportion |
| Images.ScaleToWidth | resizecbz.py:56-57 | when the width bound binds, the new width is the bound, and the height is the positive whole number whose ratio is nearest to the page's |
| Images.NewSize | resizecbz.py:56-57 | a wider-than-tall page fits the landscape box, any other page the portrait box, and a page already within its box keeps its size |
| Images.ScenarioSizes | resizecbz.py:55-57 | with boxes 1366 and 1080: 2000×1500 → 1366×1025 (1025 rather than 1024 gives the ratio nearer to 4:3) and 800×1200 → 720×1080; a square page takes the portrait box (1000×1000 stays under boxes 900 and 1080) |
| Archives.IsImageName | resizecbz.py:37-38 | an entry is a page image iff the lower-cased extension of its name is `.jpg`, `.jpeg`, `.png` or `.gif` |
| Archives.ImageNameEndsWithExtension | resizecbz.py:37-38 | a page name, lower-cased, ends with one of the page extensions |
| Archives.ImageNameExamples | resizecbz.py:37-38 | the extension test ignores case (`1.JPG` is a page), and a hidden file with a page extension (`a/.jpg`) has no extension and is not a page |
| Archives.ResizeEntry | resizecbz.py:36-62 | an entry is accepted iff its lower-cased extension is a page extension and it decodes; an unsupported name raises a `ValueError` naming it, data the library refuses raises a `ValueError`, and any other decode failure is unexpected; an accepted entry keeps its name and format and takes the orientation's new size |
| Archives.Resize | resizecbz.py:30-62 | the loop writes at most one output per source entry; output `i` is the processed source entry `i`; it either completes over all entries or stops at the first that fails, with that entry's exception; a `ValueError` from the loop is always an unsupported name or refused page data |
| Archives.Loop | resizecbz.py:36-62 | the same prefix-and-stop law for any per-entry step |
| Archives.ResizeSucceedsIff | resizecbz.py:36-41 | the loop completes exactly when every entry is a decodable page image |
| Archives.ResizePreservesOrder | resizecbz.py:33-62 | a completed loop writes the source names once each in source order, keeps every format, and never enlarges a page |
| Archives.FirstUnsupportedStops | resizecbz.py:36-39 | when entry `k` is the first non-page, the loop raises `ValueError` naming it after writing exactly `k` entries |
| Archives.FirstMalformedStops | resizecbz.py:36-41 | when entry `k` is the first page whose data the library refuses, the loop raises that `ValueError` after writing exactly `k` entries |
| Archives.LoopStopsAt | resizecbz.py:36-39 | the loop stops exactly at the first entry whose step fails |
| FileSystems.MakeDirs | resizecbz.py:79 | creating a directory succeeds iff nothing is at that path, and changes nothing else |
| FileSystems.ReadZip | resizecbz.py:80 | opening the source succeeds iff it is a readable zip file, and yields its entries; an archive that flags an entry name as UTF-8 when it is not raises a `ValueError` naming the archive; a missing path and a non-zip file raise two different faults that are not `ValueError`s |
| FileSystems.WriteZip | resizecbz.py:81-82 | writing an archive fails iff the path is a directory; afterwards the path holds exactly the written entries and nothing else changed |
| FileSystems.Remove | resizecbz.py:94-97 | removal succeeds iff the path is a file, which then no longer exists |
| FileSystems.Rename | resizecbz.py:83 | the rename succeeds iff the source is a file and the target is not a directory; the target then holds the source's contents and the source is gone |
| Publisher.TempPath | resizecbz.py:75 | the temporary path is named after the output, yet is never the output path, its directory, or any path ending in `.cbz` |
| Publisher.MakeOutputDirectory | resizecbz.py:77-79 | the output's directory exists afterwards whenever it is named; this fails only when a file occupies it |
| Publisher.TryPublish | resizecbz.py:76-83 | without an exception the output holds the completed loop's entries and no temporary file remains; a `ValueError` is either an entry rejection from the loop (an unsupported name or refused page data), which leaves the partial temporary archive, or the source's undecodable entry names, refused on opening, which change nothing but the output's directory; an exception leaves the output path as it was; only the temporary path, the output and its directory change |
| Publisher.WriteAndMove | resizecbz.py:80-83 | after the directory step, only the temporary and output paths change, and never to a directory; a `ValueError` from opening the source changes nothing, one from the loop leaves the written prefix in the temporary file |
| Publisher.WriteEntries | resizecbz.py:81-83 | the output is created only by renaming the closed temporary archive after the loop completed; a rejected loop leaves its written prefix in the temporary file |
| Publisher.MoveIntoPlace | resizecbz.py:83 | a successful rename publishes the temporary file's contents at the output and removes the temporary path; a failed one changes nothing |
| Publisher.Cleanup | resizecbz.py:94-97 | a cleanup that completes leaves neither path; one that raises stops at a path that is a directory; nothing else changes |
| Publisher.Recover | resizecbz.py:84-98 | the exception is logged once under the input; a `ValueError` is swallowed and changes nothing; anything else re-raises the original exception after removing both paths, or raises the cleanup's own failure |
| Publisher.ResizeZippedImages | resizecbz.py:68-98 | an empty log means the resized archive was published and the temporary file is gone; a swallowed exception is a `ValueError` and leaves the output as it was: an entry rejection also leaves the temporary file, while undecodable entry names in the source change nothing but the output's directory; an escaping exception is unexpected and, unless cleanup itself failed, both paths are gone; the output changes only with a successful publish |
| Publisher.RejectedRunIsRepeatable | resizecbz.py:75-85 | running the publish step again after a rejection gives the same state and log |
| Publisher.RejectedAttemptRepeats | resizecbz.py:76-83 | the `try` block repeated on the state a rejection left ends the same way |
| Publisher.RejectedWriteRepeats | resizecbz.py:80-83 | reading, the entry loop and the rename, repeated on the state a rejection left, end the same way |
| Publisher.MisencodedArchiveChangesNothing | resizecbz.py:76-85 | a source whose entry names cannot be decoded is logged and swallowed, and with the output's directory in place the file system is unchanged |
| Publisher.UnexpectedFailureRemovesBoth | resizecbz.py:86-98 | when neither path is a directory, an unexpected failure re-raises the logged exception and leaves neither the temporary nor the output path |
| Publisher.UnsupportedEntryLeavesTemp | resizecbz.py:80-85 | for an archive whose entry `k` is the first non-page, the `ValueError` naming it is logged and swallowed, the output is untouched, and the temporary file keeps the `k` pages resized before it |
| Driver.Validate | resizecbz.py:103-119 | the checks pass iff the input is a file with lower-case extension `.cbz`, the configured extension ends with `.cbz` and starts with `.`, and the input does not end with it; each failure is reported exactly when the checks before it pass |
| Driver.ValidatedInputIsCbz | resizecbz.py:103-108 | an input that passes the checks is a file whose lower-cased name ends with `.cbz` |
| Driver.OutputPath | resizecbz.py:121-125 | the output starts with the input's stem, or with the output directory when one is set, and ends in `.cbz` whenever the extension does; for an extension without `/`, its base name is the stem's base name + the extension; in place it is exactly as long as stem and extension together; moved into a directory without a trailing `/`, it is that directory, `/`, the stem's base name and the extension |
| Driver.OutputPathExamples | resizecbz.py:121-125 | `book.cbz` with extension `.resized.cbz` gives `book.resized.cbz` in place and `resized/book.resized.cbz` with output directory `resized` |
| Driver.MovedNameSpelledOut | resizecbz.py:123-125 | moving a name with a `/`-free extension into a directory without a trailing `/` gives the directory, `/`, the stem's base name and the extension |
| Driver.SameDirectoryName | resizecbz.py:121 | without an output directory, and for an extension without `/`, the output ends with the extension and keeps the stem's base name |
| Driver.MovedName | resizecbz.py:123-125 | with an output directory the output starts with it and, for an extension without `/`, keeps the same base name |
| Driver.OutputIsNotInput | resizecbz.py:118-125 | for an extension without `/`, the output path never names the validated input |
| Driver.SlashInExtCanNameInput | resizecbz.py:111-131 | an extension holding `/` passes the checks and can name the input itself: `d/b.cbz` with extension `./b.cbz` and output directory `d` has output `d/b.cbz`, and `resizeCbz` skips it, changing nothing and logging nothing |
| Driver.CbzIsNotTemp | resizecbz.py:75 | a path with extension `.cbz` in any case is never a temporary path |
| Driver.ResizeCbz | resizecbz.py:101-131 | a failed check raises its `ValueError` and changes nothing; an existing output path is skipped; otherwise the publish step runs on the derived output path |
| Driver.ResizeCbzIsIdempotent | resizecbz.py:127-131 | unless the first run raised an unexpected exception, a second run of `resizeCbz` on the state it left reaches the same state and raises the same way |
| Driver.Expand | resizecbz.py:218 | an argument without `*` or `?` stands for itself alone |
| Driver.RunPaths | resizecbz.py:218-222 | only an unexpected exception escapes the per-path loop |
| Driver.RunEach | resizecbz.py:218-222 | the same for any per-path step |
| Driver.RunBatch | resizecbz.py:216-222 | only an unexpected exception escapes the batch |
| Driver.RejectedPathDoesNotStopBatch | resizecbz.py:219-222 | a path rejected with a `ValueError` is logged under its name and the remaining paths run as if it were absent |
| Driver.RunEachRejected | resizecbz.py:219-222 | the same for any step whose rejection changes nothing |
| Driver.UnexpectedStopsBatch | resizecbz.py:219-222 | an unexpected exception from one path ends the loop with that path's report |
| Driver.LiteralArgumentsAreUsedAsGiven | resizecbz.py:217-218 | arguments without wildcards are processed as given, whatever the matcher answers |

## Left out

- Images.Thumbnail: makes the image library's choice of size in exact integer arithmetic, where the library uses floating point. When the two candidate lengths are equally near up to floating-point error, the library may pick the other one. JPEG draft-mode decoding is not modelled.
- Image decoding, LANCZOS resampling and re-encoding (`resizecbz.py:41,56-61`) are foreign floating-point library code. An entry carries its decoded format and size, or one of the two ways decoding fails.
- Archives.ResizeEntry: a `ValueError` the library raises only while re-encoding is folded into `Malformed`, and other errors raised while saving or writing a page are not modelled. Only opening the temporary archive and the rename can fail once the source is read.
- The zip format, the `ZIP_STORED` choice, and duplicate names inside one archive are not modelled. An archive is the sequence of its entries.
- Paths.Lower: folds ASCII letters only. No non-ASCII character lowers to exactly one of the ASCII extensions compared against, so the accept/reject decisions are the same.
- FileSystems.MakeDirs: creates only the named directory, not missing parents. Whether a parent directory exists is not checked for any file operation.
- The atomicity of `os.rename`, symbolic links, permissions, and exceptions from `os.path.exists`/`isfile`/`isdir` are not modelled.
- The text written to the error log and to standard output (`appendToErrorLog`, `print`) is not modelled. A log line is the path and the exception.
- `readConfigurationFile` and the `int()` parsing of the two bounds (`resizecbz.py:71-74,134-201`) are not modelled. The configuration is given, with both bounds positive integers.
- `glob.glob` is a parameter, not modelled. So are the no-argument branch of `main` (`resizecbz.py:223-231`), `Image.MAX_IMAGE_PIXELS`, and printing the configuration.
- Asynchronous exceptions such as a keyboard interrupt are not modelled. `except BaseException` catches them too.
- Paths.SplitExt: the model follows POSIX paths (`posixpath`) and POSIX `rename` only, although the program also runs on Windows (`resizecbz.py:179`). There `os.path` splits on `\` as well as `/` and knows drive letters, so `Paths.Basename` of `C:\c\book.resized.cbz` differs. Also, a Windows `os.rename` raises when the target exists, where `FileSystems.Rename` replaces it.
- FileSystems.Rename: paths are compared as strings, so `a//b` and `a/b`, or `./x` and `x`, are different keys although the operating system sees one file. The frame and idempotence lemmas therefore hold per spelling of a path.
- Driver.OutputIsNotInput: holds only for a configured extension without `/`. The checks at `resizecbz.py:111-119` accept an extension such as `./b.cbz`, and then the output can be the input (`Driver.SlashInExtCanNameInput`). The existence test at line 127 then skips the input, so no file is harmed.
- An input path equal to its own temporary path is not modelled. `Driver.CbzIsNotTemp` shows that the driver never produces one.

=== FILE: archives.dfy ===
/**
 The entry loop: walk a comic archive's entries in order, refuse the whole
 archive at the first entry that is not a supported page image, and shrink
 every page into the box its orientation selects, writing it under its own
 name.
 */
module Archives {
  import opened Errors
  import opened Paths
  import opened Images

  /** What the image library makes of an entry's bytes: an image of some
      format (the format it detects, re-used when saving); data it cannot
      identify or read, which it reports with an error other than
      `ValueError`; or data it refuses with a `ValueError` (a compressed
      chunk over its decompression limit, say). */
  datatype Picture = Image(format: string, size: Dims) | Undecodable | Malformed

  datatype Entry = Entry(name: Path, picture: Picture)

  /** The extensions, after lower-casing, that mark a page image. */
  const ImageExtensions: set<string> := {".jpg", ".jpeg", ".png", ".gif"}

  predicate IsImageName(name: Path) {
    Lower(Ext(name)) in ImageExtensions
  }

  /** A page name, lower-cased, ends with one of the page extensions. */
  lemma ImageNameEndsWithExtension(name: Path)
    ensures IsImageName(name) ==> exists e :: e in ImageExtensions && EndsWith(Lower(name), e)
  {
    LowerExtIsSuffix(name);
  }

  /** The test ignores case, and a hidden file such as `.jpg` inside a folder
      has no extension at all, so it is not a page. */
  lemma ImageNameExamples()
    ensures IsImageName("1.JPG")
    ensures !IsImageName("a/.jpg")
  {
    SplitExtExamples();
    assert Lower(".JPG") == ".jpg";
    RFindUnique("a/.jpg", '/', 1);
    RFindUnique("a/.jpg", '.', 2);
  }

  /** One iteration of the loop: check the name, decode, shrink, re-encode. */
  function ResizeEntry(e: Entry, bounds: Bounds): (r: Result<Entry>)
    ensures r.Success? <==> IsImageName(e.name) && e.picture.Image?
    ensures !IsImageName(e.name) ==> r == Failure(ValueError(UnsupportedImage(e.name)))
    ensures IsImageName(e.name) && e.picture.Undecodable? ==>
              r == Failure(Unexpected(DecodeFailed(e.name)))
    ensures IsImageName(e.name) && e.picture.Malformed? ==> r == Failure(ValueError(BadImageData))
    ensures r.Success? ==> r.value.name == e.name && r.value.picture.Image?
    ensures r.Success? ==> r.value.picture.format == e.picture.format
    ensures r.Success? ==> r.value.picture.size == NewSize(e.picture.size, bounds)
  {
    if !IsImageName(e.name) then Failure(ValueError(UnsupportedImage(e.name)))
    else match e.picture
      case Undecodable => Failure(Unexpected(DecodeFailed(e.name)))
      case Malformed => Failure(ValueError(BadImageData))
      case Image(format, size) => Success(Entry(e.name, Image(format, NewSize(size, bounds))))
  }

  /** What the loop leaves behind: the entries it wrote, in writing order, and
      the exception that stopped it, if any. */
  datatype Run = Run(written: seq<Entry>, failure: Option<Error>)

  /** The entry loop over a source archive's entries. Entry `i` of the output
      is the resized entry `i` of the source; the loop stops at the first entry
      it cannot process, having written exactly the entries before it. */
  function Resize(entries: seq<Entry>, bounds: Bounds): (run: Run)
    ensures |run.written| <= |entries|
    ensures forall i :: 0 <= i < |run.written| ==>
              ResizeEntry(entries[i], bounds) == Success(run.written[i])
    ensures run.failure.None? ==> |run.written| == |entries|
    ensures run.failure.Some? ==>
              |run.written| < |entries| &&
              ResizeEntry(entries[|run.written|], bounds) == Failure(run.failure.value)
    ensures run.failure.Some? && run.failure.value.ValueError? ==> IsEntryRejection(run.failure.value)
    ensures run.failure.Some? && run.failure.value.Unexpected? ==>
              run.failure.value.fault.DecodeFailed?
  {
    Loop(entries, e => ResizeEntry(e, bounds))
  }

  /** The loop itself, for any per-entry step: it writes what the step returns
      until the step first fails. */
  function Loop(entries: seq<Entry>, step: Entry -> Result<Entry>): (run: Run)
    ensures |run.written| <= |entries|
    ensures forall i :: 0 <= i < |run.written| ==> step(entries[i]) == Success(run.written[i])
    ensures run.failure.None? ==> |run.written| == |entries|
    ensures run.failure.Some? ==>
              |run.written| < |entries| && step(entries[|run.written|]) == Failure(run.failure.value)
  {
    if |entries| == 0 then Run([], None)
    else
      var first := step(entries[0]);
      if first.Failure? then Run([], Some(first.error))
      else
        var rest := Loop(entries[1..], step);
        var written := [first.value] + rest.written;
        forall i | 1 <= i < |written|
          ensures step(entries[i]) == Success(written[i])
        {
          assert written[i] == rest.written[i - 1];
          assert entries[i] == entries[1..][i - 1];
        }
        Run(written, rest.failure)
  }

  function Names(entries: seq<Entry>): (names: seq<Path>)
    ensures |names| == |entries|
    ensures forall i :: 0 <= i < |entries| ==> names[i] == entries[i].name
  {
    seq(|entries|, i requires 0 <= i < |entries| => entries[i].name)
  }

  predicate AllPages(entries: seq<Entry>) {
    forall i :: 0 <= i < |entries| ==> IsImageName(entries[i].name) && entries[i].picture.Image?
  }

  /** The loop completes exactly when every entry is a decodable page image. */
  lemma ResizeSucceedsIff(entries: seq<Entry>, bounds: Bounds)
    ensures Resize(entries, bounds).failure.None? <==> AllPages(entries)
  {
    var run := Resize(entries, bounds);
    if run.failure.None? {
      forall i | 0 <= i < |entries|
        ensures IsImageName(entries[i].name) && entries[i].picture.Image?
      {
        assert ResizeEntry(entries[i], bounds).Success?;
      }
    } else {
      assert !ResizeEntry(entries[|run.written|], bounds).Success?;
    }
  }

  /** A completed loop writes every source name once, in source order, each
      page keeping its format and shrinking into its orientation's box. */
  lemma ResizePreservesOrder(entries: seq<Entry>, bounds: Bounds)
    requires Resize(entries, bounds).failure.None?
    ensures Names(Resize(entries, bounds).written) == Names(entries)
    ensures forall i :: 0 <= i < |entries| ==>
              var before := entries[i].picture;
              var after := Resize(entries, bounds).written[i].picture;
              after.Image? && before.Image? && after.format == before.format &&
              after.size.width <= before.size.width && after.size.height <= before.size.height &&
              Fits(after.size, ChooseBox(before.size, bounds)) &&
              (Fits(before.size, ChooseBox(before.size, bounds)) ==> after.size == before.size)
  {
    var run := Resize(entries, bounds);
    forall i | 0 <= i < |entries|
      ensures run.written[i].name == entries[i].name
    {
      assert ResizeEntry(entries[i], bounds) == Success(run.written[i]);
    }
  }

  /** When entry `k` is the first that is not a page image and the ones before
      it decode, the loop raises a `ValueError` naming entry `k`, and has
      written exactly the resized entries `0..k-1`. */
  lemma FirstUnsupportedStops(entries: seq<Entry>, bounds: Bounds, k: nat)
    requires k < |entries| && !IsImageName(entries[k].name)
    requires AllPages(entries[..k])
    ensures Resize(entries, bounds).failure == Some(ValueError(UnsupportedImage(entries[k].name)))
    ensures |Resize(entries, bounds).written| == k
  {
    var step := e => ResizeEntry(e, bounds);
    forall j | 0 <= j < k
      ensures step(entries[j]).Success?
    {
      assert entries[..k][j] == entries[j];
    }
    assert step(entries[k]) == Failure(ValueError(UnsupportedImage(entries[k].name)));
    LoopStopsAt(entries, step, k);
  }

  /** When entry `k` is a page name whose data the image library refuses and
      the entries before it are pages, the loop raises that `ValueError` after
      writing exactly the resized entries `0..k-1`. */
  lemma FirstMalformedStops(entries: seq<Entry>, bounds: Bounds, k: nat)
    requires k < |entries| && IsImageName(entries[k].name) && entries[k].picture.Malformed?
    requires AllPages(entries[..k])
    ensures Resize(entries, bounds).failure == Some(ValueError(BadImageData))
    ensures |Resize(entries, bounds).written| == k
  {
    var step := e => ResizeEntry(e, bounds);
    forall j | 0 <= j < k
      ensures step(entries[j]).Success?
    {
      assert entries[..k][j] == entries[j];
    }
    assert step(entries[k]) == Failure(ValueError(BadImageData));
    LoopStopsAt(entries, step, k);
  }

  /** The loop stops exactly at the first entry whose step fails. */
  lemma LoopStopsAt(entries: seq<Entry>, step: Entry -> Result<Entry>, k: nat)
    requires k < |entries| && step(entries[k]).Failure?
    requires forall j :: 0 <= j < k ==> step(entries[j]).Success?
    ensures Loop(entries, step).failure == Some(step(entries[k]).error)
    ensures |Loop(entries, step).written| == k
  {
    var run := Loop(entries, step);
    assert |run.written| <= k;
  }
}

=== FILE: driver.dfy ===
/**
 The per-path driver (`resizeCbz`) and the batch loop of `main`.

 `resizeCbz` validates the input path and the configured output extension,
 derives the output path, and publishes unless that path already exists. The
 batch loop runs it for every path, expanding an argument with `*` or `?`
 through the file-name matcher; a `ValueError` for one path is logged and the
 loop goes on, any other exception ends the batch.
 */
module Driver {
  import opened Errors
  import opened Paths
  import opened FileSystems
  import opened Publisher

  /** The checks `resizeCbz` makes before anything else, in source order;
      the result is the first one that fails. */
  function Validate(fs: FileSystem, path: Path, ext: string): (r: Option<Reason>)
    ensures r.None? <==>
              IsFile(fs, path) && Lower(Ext(path)) == ".cbz" &&
              EndsWith(ext, ".cbz") && StartsWith(ext, ".") && !EndsWith(path, ext)
    ensures r == Some(NotAFile(path)) <==> !IsFile(fs, path)
    ensures r == Some(NotCbz(path)) <==> IsFile(fs, path) && Lower(Ext(path)) != ".cbz"
    ensures r == Some(ResizedExtNotCbz(ext)) <==>
              IsFile(fs, path) && Lower(Ext(path)) == ".cbz" && !EndsWith(ext, ".cbz")
    ensures r == Some(ResizedExtNoPeriod(ext)) <==>
              IsFile(fs, path) && Lower(Ext(path)) == ".cbz" && EndsWith(ext, ".cbz") &&
              !StartsWith(ext, ".")
    ensures r == Some(SameExt(path, ext)) <==>
              IsFile(fs, path) && Lower(Ext(path)) == ".cbz" && EndsWith(ext, ".cbz") &&
              StartsWith(ext, ".") && EndsWith(path, ext)
  {
    if !IsFile(fs, path) then Some(NotAFile(path))
    else if Lower(Ext(path)) != ".cbz" then Some(NotCbz(path))
    else if !EndsWith(ext, ".cbz") then Some(ResizedExtNotCbz(ext))
    else if !StartsWith(ext, ".") then Some(ResizedExtNoPeriod(ext))
    else if EndsWith(path, ext) then Some(SameExt(path, ext))
    else None
  }

  /** A validated input is a file whose name, lower-cased, ends with `.cbz`. */
  lemma ValidatedInputIsCbz(fs: FileSystem, path: Path, ext: string)
    ensures Validate(fs, path, ext).None? ==> IsFile(fs, path) && EndsWith(Lower(path), ".cbz")
  {
    LowerExtIsSuffix(path);
  }

  /** The output path: the input without its extension, plus the configured
      extension, moved into the output directory when one is configured. It
      starts with the input's stem or with that directory, its base name is
      the stem's base name plus the extension, and it ends with `.cbz`
      whenever the extension does. */
  function OutputPath(path: Path, cfg: Config): (out: Path)
    ensures cfg.outputDirectory == [] ==> StartsWith(out, StripExt(path))
    ensures cfg.outputDirectory == [] ==> EndsWith(out, cfg.resizedFileExt)
    ensures cfg.outputDirectory != [] ==> StartsWith(out, cfg.outputDirectory)
    ensures '/' !in cfg.resizedFileExt ==>
              EndsWith(out, cfg.resizedFileExt) &&
              Basename(out) == Basename(StripExt(path)) + cfg.resizedFileExt
    ensures EndsWith(cfg.resizedFileExt, ".cbz") ==> EndsWith(out, ".cbz")
    ensures cfg.outputDirectory == [] ==> |out| == |StripExt(path)| + |cfg.resizedFileExt|
    ensures cfg.outputDirectory != [] && !EndsWith(cfg.outputDirectory, "/") &&
            '/' !in cfg.resizedFileExt ==>
              out == cfg.outputDirectory + "/" + Basename(StripExt(path)) + cfg.resizedFileExt
  {
    var stem := StripExt(path);
    var ext := cfg.resizedFileExt;
    if cfg.outputDirectory == [] then
      SameDirectoryName(stem, ext);
      assert (stem + ext)[..|stem|] == stem;
      stem + ext
    else
      MovedName(cfg.outputDirectory, stem, ext);
      MovedNameSpelledOut(cfg.outputDirectory, stem, ext);
      Join(cfg.outputDirectory, Basename(stem + ext))
  }

  lemma SameDirectoryName(stem: Path, ext: string)
    ensures '/' !in ext ==> EndsWith(stem + ext, ext) && Basename(stem + ext) == Basename(stem) + ext
    ensures EndsWith(ext, ".cbz") ==> EndsWith(stem + ext, ".cbz")
  {
    EndsWithAppend(stem, ext);
    BasenameAppend(stem, ext);
    SuffixSurvivesBasename(stem, ext, ".cbz");
  }

  lemma MovedName(dir: Path, stem: Path, ext: string)
    ensures StartsWith(Join(dir, Basename(stem + ext)), dir)
    ensures '/' !in ext ==>
              EndsWith(Join(dir, Basename(stem + ext)), ext) &&
              Basename(Join(dir, Basename(stem + ext))) == Basename(stem) + ext
    ensures EndsWith(ext, ".cbz") ==> EndsWith(Join(dir, Basename(stem + ext)), ".cbz")
  {
    var name := Basename(stem + ext);
    BasenameAppend(stem, ext);
    SuffixSurvivesBasename(stem, ext, ".cbz");
    if |name| > 0 {
      assert name[0] in name;
    }
    assert !StartsWith(name, "/");
    var out := Join(dir, name);
    EndsWithTrans(out, name, ext);
    EndsWithTrans(out, name, ".cbz");
  }

  /** Moved into a directory without a trailing `/`, the output is that
      directory, one `/`, the stem's base name and the extension. */
  lemma MovedNameSpelledOut(dir: Path, stem: Path, ext: string)
    ensures dir != [] && !EndsWith(dir, "/") && '/' !in ext ==>
              Join(dir, Basename(stem + ext)) == dir + "/" + Basename(stem) + ext
  {
    if dir != [] && !EndsWith(dir, "/") && '/' !in ext {
      var name := Basename(stem + ext);
      BasenameAppend(stem, ext);
      if |name| > 0 {
        assert name[0] in name;
      }
      assert !StartsWith(name, "/");
      assert dir + "/" + (Basename(stem) + ext) == dir + "/" + Basename(stem) + ext;
    }
  }

  /** The output path never names the input: it ends with the configured
      extension and a validated input does not. */
  lemma OutputIsNotInput(path: Path, cfg: Config)
    requires '/' !in cfg.resizedFileExt && !EndsWith(path, cfg.resizedFileExt)
    ensures OutputPath(path, cfg) != path
  {
  }

  /** The output path names the input when the configured extension holds a
      `/`: validation accepts `./b.cbz`, and joining the base name of
      `d/b./b.cbz` onto `d` gives `d/b.cbz` back. The input exists, so
      `resizeCbz` then skips it without a word in the log. */
  lemma SlashInExtCanNameInput(fs: FileSystem)
    requires IsFile(fs, "d/b.cbz")
    ensures var cfg := Config("d", 1, 1, "./b.cbz");
            Validate(fs, "d/b.cbz", cfg.resizedFileExt).None? &&
            OutputPath("d/b.cbz", cfg) == "d/b.cbz" &&
            ResizeCbz(fs, "d/b.cbz", cfg) == Report(fs, [], None)
  {
    SlashInExtValidates(fs);
    SlashInExtOutput();
  }

  lemma SlashInExtValidates(fs: FileSystem)
    requires IsFile(fs, "d/b.cbz")
    ensures Validate(fs, "d/b.cbz", "./b.cbz").None?
  {
    var path: Path := "d/b.cbz";
    var ext: string := "./b.cbz";
    StemOf(path, 3);
    assert Lower(".cbz") == ".cbz";
    assert path[0] != ext[0];
  }

  lemma SlashInExtOutput()
    ensures OutputPath("d/b.cbz", Config("d", 1, 1, "./b.cbz")) == "d/b.cbz"
  {
    var path: Path := "d/b.cbz";
    StemOf(path, 3);
    var name: Path := "d/b./b.cbz";
    assert StripExt(path) + "./b.cbz" == name;
    BasenameAt(name, 4);
    assert name[5..] == "b.cbz";
    assert !StartsWith("b.cbz", "/") && !EndsWith("d", "/");
    assert "d" + "/" + "b.cbz" == path;
  }

  /** The output path for `book.cbz` with the extension `.resized.cbz`, in
      place and moved into the directory `resized`. */
  lemma OutputPathExamples()
    ensures OutputPath("book.cbz", Config("", 1, 1, ".resized.cbz")) == "book.resized.cbz"
    ensures OutputPath("book.cbz", Config("resized", 1, 1, ".resized.cbz")) ==
              "resized/book.resized.cbz"
  {
    ExampleStem();
    assert "book" + ".resized.cbz" == "book.resized.cbz";
    assert !EndsWith("resized", "/") && '/' !in ".resized.cbz";
    assert "resized" + "/" + "book" + ".resized.cbz" == "resized/book.resized.cbz";
  }

  lemma ExampleStem()
    ensures StripExt("book.cbz") == "book" && Basename("book") == "book"
  {
    StemOf("book.cbz", 4);
    BasenameAt("book", -1);
    assert "book"[0..] == "book";
  }

  /** The stem and extension of a path whose last `.`, at `dot`, follows its
      last `/` and something other than a dot in the final component. */
  lemma StemOf(path: Path, dot: int)
    requires 0 < dot < |path| && path[dot] == '.' && path[dot - 1] != '.' && path[dot - 1] != '/'
    requires forall j :: dot < j < |path| ==> path[j] != '.' && path[j] != '/'
    ensures StripExt(path) == path[..dot] && Ext(path) == path[dot..]
  {
    RFindUnique(path, '.', dot);
    SplitExtFound(path);
    assert SplitExt(path).1 != [] by {
      assert RFind(path, '/') < dot - 1;
    }
    SplitExtShape(path);
  }

  /** The base name of a path whose last `/` is at `sep`. */
  lemma BasenameAt(path: Path, sep: int)
    requires -1 <= sep < |path| && (0 <= sep ==> path[sep] == '/')
    requires forall j :: sep < j < |path| ==> path[j] != '/'
    ensures Basename(path) == path[sep + 1..]
  {
    RFindUnique(path, '/', sep);
  }

  /** A path whose lower-cased extension is `.cbz` ends in `z` or `Z`, so it
      is never a temporary path. */
  lemma CbzIsNotTemp(path: Path, output: Path)
    requires Lower(Ext(path)) == ".cbz"
    ensures path != TempPath(output)
  {
    var ext := Ext(path);
    SplitExtShape(path);
    assert |ext| == 4 && Lower(ext)[3] == LowerChar(ext[3]) == 'z';
    assert StripExt(path) + ext == path;
    assert path[|path| - 1] == ext[3];
    assert TempPath(output)[|TempPath(output)| - 1] == 'p';
  }

  /** `resizeCbz`: validate, derive the output path, and publish unless that
      path already exists. */
  function ResizeCbz(fs: FileSystem, path: Path, cfg: Config): (r: Report)
    ensures Validate(fs, path, cfg.resizedFileExt).Some? ==>
              r == Report(fs, [], Some(ValueError(Validate(fs, path, cfg.resizedFileExt).value)))
    ensures Validate(fs, path, cfg.resizedFileExt).None? && OutputPath(path, cfg) in fs ==>
              r == Report(fs, [], None)
    ensures Validate(fs, path, cfg.resizedFileExt).None? && OutputPath(path, cfg) !in fs ==>
              r == ResizeZippedImages(fs, path, OutputPath(path, cfg), cfg)
    ensures r.raised.Some? && r.raised.value.ValueError? ==> r.fs == fs && r.log == []
  {
    var reason := Validate(fs, path, cfg.resizedFileExt);
    if reason.Some? then Report(fs, [], Some(ValueError(reason.value)))
    else
      var out := OutputPath(path, cfg);
      if out in fs then Report(fs, [], None)
      else ResizeZippedImages(fs, path, out, cfg)
  }

  /** Running `resizeCbz` a second time on what the first run left, with the
      same path and configuration, changes nothing and raises what the first
      did: a published output makes the second run a skip, and a rejected
      archive is rejected again the same way. */
  lemma ResizeCbzIsIdempotent(fs: FileSystem, path: Path, cfg: Config)
    ensures var r := ResizeCbz(fs, path, cfg);
            !(r.raised.Some? && r.raised.value.Unexpected?) ==>
              ResizeCbz(r.fs, path, cfg).fs == r.fs && ResizeCbz(r.fs, path, cfg).raised == r.raised
  {
    var r := ResizeCbz(fs, path, cfg);
    var ext := cfg.resizedFileExt;
    if !(r.raised.Some? && r.raised.value.Unexpected?) && Validate(fs, path, ext).None? {
      var out := OutputPath(path, cfg);
      if out !in fs {
        CbzIsNotTemp(path, out);
        assert IsFile(r.fs, path);
        assert Validate(r.fs, path, ext).None?;
        assert !AllSlashes(out) by {
          assert out[|out| - 1] == 'z';
        }
        if r.log != [] {
          RejectedRunIsRepeatable(fs, path, out, cfg);
        }
      }
    }
  }


  /** An argument without the wildcards `*` and `?`. */
  predicate Literal(arg: string) {
    '*' !in arg && '?' !in arg
  }

  /** The paths one command-line argument stands for: the matcher's answer
      for an argument with `*` or `?`, else the argument itself. The matcher
      sees the file system as it is when the argument's turn comes. */
  function Expand(fs: FileSystem, arg: string, glob: (FileSystem, string) -> seq<Path>): (paths: seq<Path>)
    ensures Literal(arg) ==> paths == [arg]
  {
    if Literal(arg) then [arg] else glob(fs, arg)
  }

  /** The inner loop: `resizeCbz` on each path in turn. */
  function RunPaths(fs: FileSystem, paths: seq<Path>, cfg: Config): (r: Report)
    ensures r.raised.Some? ==> r.raised.value.Unexpected?
  {
    RunEach(fs, paths, (fs', p) => ResizeCbz(fs', p, cfg))
  }

  /** The inner loop for any per-path step: a `ValueError` is logged under
      its path and the loop goes on with the next path; anything else escapes
      and ends the loop. */
  function RunEach(fs: FileSystem, paths: seq<Path>, step: (FileSystem, Path) -> Report): (r: Report)
    ensures r.raised.Some? ==> r.raised.value.Unexpected?
    decreases |paths|
  {
    if paths == [] then Report(fs, [], None)
    else
      var first := step(fs, paths[0]);
      if first.raised.Some? && first.raised.value.Unexpected? then first
      else
        var logged := if first.raised.Some? then first.log + [LogLine(paths[0], first.raised.value)] else first.log;
        var rest := RunEach(first.fs, paths[1..], step);
        Report(rest.fs, logged + rest.log, rest.raised)
  }

  /** The outer loop over the command-line arguments after the program name. */
  function RunBatch(fs: FileSystem, args: seq<string>, cfg: Config,
                    glob: (FileSystem, string) -> seq<Path>): (r: Report)
    ensures r.raised.Some? ==> r.raised.value.Unexpected?
    decreases |args|
  {
    if args == [] then Report(fs, [], None)
    else
      var first := RunPaths(fs, Expand(fs, args[0], glob), cfg);
      if first.raised.Some? then first
      else
        var rest := RunBatch(first.fs, args[1..], cfg, glob);
        Report(rest.fs, first.log + rest.log, rest.raised)
  }

  /** A path rejected with a `ValueError` is logged under its name, changes
      nothing, and the rest of the paths run as if it had not been there. */
  lemma RejectedPathDoesNotStopBatch(fs: FileSystem, p: Path, rest: seq<Path>, cfg: Config)
    requires ResizeCbz(fs, p, cfg).raised.Some? && ResizeCbz(fs, p, cfg).raised.value.ValueError?
    ensures var tail := RunPaths(fs, rest, cfg);
            RunPaths(fs, [p] + rest, cfg) ==
              Report(tail.fs, [LogLine(p, ResizeCbz(fs, p, cfg).raised.value)] + tail.log, tail.raised)
  {
    var step := ResizeCbz(fs, p, cfg);
    assert step.fs == fs && step.log == [];
    RunEachRejected(fs, p, rest, (fs', q) => ResizeCbz(fs', q, cfg));
  }

  lemma RunEachRejected(fs: FileSystem, p: Path, rest: seq<Path>, step: (FileSystem, Path) -> Report)
    requires step(fs, p).raised.Some? && step(fs, p).raised.value.ValueError?
    requires step(fs, p).fs == fs && step(fs, p).log == []
    ensures var tail := RunEach(fs, rest, step);
            RunEach(fs, [p] + rest, step) ==
              Report(tail.fs, [LogLine(p, step(fs, p).raised.value)] + tail.log, tail.raised)
  {
    assert ([p] + rest)[1..] == rest;
    assert [] + [LogLine(p, step(fs, p).raised.value)] == [LogLine(p, step(fs, p).raised.value)];
  }

  /** Any other exception from one path ends the loop there: the remaining
      paths are never looked at. */
  lemma UnexpectedStopsBatch(fs: FileSystem, p: Path, rest: seq<Path>, cfg: Config)
    ensures var first := ResizeCbz(fs, p, cfg);
            first.raised.Some? && first.raised.value.Unexpected? ==> RunPaths(fs, [p] + rest, cfg) == first
  {
  }

  /** Arguments without `*` or `?` are used as given: the batch is the inner
      loop over the argument list itself, whatever the matcher would answer. */
  lemma {:induction false} LiteralArgumentsAreUsedAsGiven(
    fs: FileSystem, args: seq<string>, cfg: Config, glob: (FileSystem, string) -> seq<Path>)
    requires forall i :: 0 <= i < |args| ==> Literal(args[i])
    ensures RunBatch(fs, args, cfg, glob) == RunPaths(fs, args, cfg)
    decreases |args|
  {
    if args != [] {
      var step := ResizeCbz(fs, args[0], cfg);
      assert Expand(fs, args[0], glob) == [args[0]];
      if !(step.raised.Some? && step.raised.value.Unexpected?) {
        var logged := if step.raised.Some? then step.log + [LogLine(args[0], step.raised.value)] else step.log;
        assert [args[0]][1..] == [];
        assert RunPaths(step.fs, [], cfg) == Report(step.fs, [], None);
        assert logged + [] == logged;
        assert RunPaths(fs, [args[0]], cfg) == Report(step.fs, logged, None);
        LiteralArgumentsAreUsedAsGiven(step.fs, args[1..], cfg, glob);
      }
    }
  }
}

=== FILE: errors.dfy ===
/**
 Failure values of the comic-archive resizer.

 The program distinguishes exactly two kinds of exception: `ValueError`,
 which it treats as a problem with one input (logged, the batch goes on),
 and everything else, which it treats as an environment problem (cleanup,
 then the exception escapes). `Error` keeps that split; `Reason` and `Fault`
 say which check or which operation failed.
 */
module Errors {

  /** Why a `ValueError` was raised. */
  datatype Reason =
    | NotAFile(path: string)               // the input path is not a regular file
    | NotCbz(path: string)                 // the input's extension is not `.cbz` in any case
    | ResizedExtNotCbz(ext: string)        // the configured output extension does not end with `.cbz`
    | ResizedExtNoPeriod(ext: string)      // the configured output extension does not start with `.`
    | SameExt(path: string, ext: string)   // the input already ends with the output extension
    | UnsupportedImage(name: string)       // an archive entry is not a jpg/jpeg/png/gif page
    | BadImageData                         // the image library rejected a page's data
    | BadEntryName(archive: string)        // the archive flags an entry name as UTF-8 that is not

  /** Any exception other than `ValueError`. */
  datatype Fault =
    | DecodeFailed(name: string)           // the image library could not read an entry
    | OsError(path: string)                // a file-system call on `path` raised
    | NotAZipFile(path: string)            // the input file is not a zip container
    | RemoveFailed(path: string)           // cleanup's own removal of `path` raised

  datatype Error = ValueError(reason: Reason) | Unexpected(fault: Fault)

  /** The two `ValueError`s the entry loop can raise: a name that is not a
      page image, or page data the image library refuses. */
  predicate IsEntryRejection(e: Error) {
    e.ValueError? && (e.reason.UnsupportedImage? || e.reason.BadImageData?)
  }

  datatype Option<+T> = None | Some(value: T)

  /** The value of an operation, or the exception it raised. */
  datatype Result<+T> = Success(value: T) | Failure(error: Error)
}

=== FILE: filesystem.dfy ===
/**
 An abstract file system: a map from path to directory or file, and the few
 operating-system calls the resizer makes on it. Each call either succeeds
 with the new file system or raises an error. Only opening an archive whose
 entry names cannot be decoded raises a `ValueError`; every other failure
 raises something else.
 */
module FileSystems {
  import opened Errors
  import opened Paths
  import opened Archives

  /** A file's contents as the zip reader sees them: a readable archive, an
      archive whose directory flags an entry name as UTF-8 although its bytes
      are not valid UTF-8 (the reader's decoding of it raises a `ValueError`),
      or no archive at all. */
  datatype Contents = Zip(entries: seq<Entry>) | MisencodedNames | NotZip

  datatype Node = Directory | File(contents: Contents)

  type FileSystem = map<Path, Node>

  predicate IsFile(fs: FileSystem, p: Path) {
    p in fs && fs[p].File?
  }

  predicate IsDir(fs: FileSystem, p: Path) {
    p in fs && fs[p].Directory?
  }

  /** `p` is absent from both, or present in both with the same node. */
  predicate SameAt(fs: FileSystem, fs': FileSystem, p: Path) {
    (p in fs <==> p in fs') && (p in fs ==> fs[p] == fs'[p])
  }

  /** Every path other than `a` and `b` keeps its node, and nothing appears. */
  ghost predicate OnlyChanged(fs: FileSystem, fs': FileSystem, a: Path, b: Path) {
    forall p :: p != a && p != b ==> SameAt(fs, fs', p)
  }

  /** Every path other than `a` and `b` keeps its node, and the only other
      path that may appear is `d`. */
  ghost predicate OnlyChangedOrCreated(fs: FileSystem, fs': FileSystem, a: Path, b: Path, d: Path) {
    forall p :: p != a && p != b ==> (p in fs ==> p in fs' && fs'[p] == fs[p]) && (p in fs' && p !in fs ==> p == d)
  }

  lemma OnlyChangedTrans(fs: FileSystem, fs': FileSystem, fs'': FileSystem, a: Path, b: Path)
    ensures OnlyChanged(fs, fs', a, b) && OnlyChanged(fs', fs'', a, b) ==> OnlyChanged(fs, fs'', a, b)
  {
    if OnlyChanged(fs, fs', a, b) && OnlyChanged(fs', fs'', a, b) {
      forall p | p != a && p != b
        ensures SameAt(fs, fs'', p)
      {
        assert SameAt(fs, fs', p) && SameAt(fs', fs'', p);
      }
    }
  }

  /** A step that may only create `d`, followed by one that changes only `a`
      and `b`, changes only `a` and `b` and creates at most `d` besides. */
  lemma CreatedThenChanged(fs: FileSystem, fs': FileSystem, fs'': FileSystem, a: Path, b: Path, d: Path)
    requires OnlyChanged(fs, fs', d, d) && (d in fs ==> fs' == fs)
    requires OnlyChanged(fs', fs'', a, b)
    ensures OnlyChangedOrCreated(fs, fs'', a, b, d)
  {
    forall p | p != a && p != b
      ensures (p in fs ==> p in fs'' && fs''[p] == fs[p]) && (p in fs'' && p !in fs ==> p == d)
    {
      if p != d {
        assert SameAt(fs, fs', p);
      }
      assert SameAt(fs', fs'', p);
    }
  }

  /** A further step that changes only `a` and `b` keeps that frame. */
  lemma CreatedThenChangedAgain(fs: FileSystem, fs': FileSystem, fs'': FileSystem, a: Path, b: Path, d: Path)
    requires OnlyChangedOrCreated(fs, fs', a, b, d)
    requires OnlyChanged(fs', fs'', a, b)
    ensures OnlyChangedOrCreated(fs, fs'', a, b, d)
  {
    forall p | p != a && p != b
      ensures (p in fs ==> p in fs'' && fs''[p] == fs[p]) && (p in fs'' && p !in fs ==> p == d)
    {
      assert SameAt(fs', fs'', p);
    }
  }

  /** `os.makedirs(d)`: creates the directory; raises when `d` already exists. */
  function MakeDirs(fs: FileSystem, d: Path): (r: Result<FileSystem>)
    ensures r.Success? <==> d !in fs
    ensures r.Success? ==> IsDir(r.value, d) && OnlyChanged(fs, r.value, d, d)
    ensures r.Failure? ==> r.error == Unexpected(OsError(d))
  {
    if d in fs then Failure(Unexpected(OsError(d))) else Success(fs[d := Directory])
  }

  /** `zipfile.ZipFile(p)`: the entry list of an existing zip file. */
  function ReadZip(fs: FileSystem, p: Path): (r: Result<seq<Entry>>)
    ensures r.Success? <==> IsFile(fs, p) && fs[p].contents.Zip?
    ensures r.Success? ==> r.value == fs[p].contents.entries
    ensures r.Failure? && IsFile(fs, p) && fs[p].contents.NotZip? ==> r.error == Unexpected(NotAZipFile(p))
    ensures r.Failure? && IsFile(fs, p) && fs[p].contents.MisencodedNames? ==>
              r.error == ValueError(BadEntryName(p))
    ensures r.Failure? && !IsFile(fs, p) ==> r.error == Unexpected(OsError(p))
  {
    if !IsFile(fs, p) then Failure(Unexpected(OsError(p)))
    else match fs[p].contents
      case NotZip => Failure(Unexpected(NotAZipFile(p)))
      case MisencodedNames => Failure(ValueError(BadEntryName(p)))
      case Zip(entries) => Success(entries)
  }

  /** Opening `p` for writing and closing it after `entries` were written:
      the file then holds exactly those entries. A directory cannot be opened. */
  function WriteZip(fs: FileSystem, p: Path, entries: seq<Entry>): (r: Result<FileSystem>)
    ensures r.Success? <==> !IsDir(fs, p)
    ensures r.Success? ==> p in r.value && r.value[p] == File(Zip(entries))
    ensures r.Success? ==> OnlyChanged(fs, r.value, p, p)
    ensures r.Failure? ==> r.error == Unexpected(OsError(p))
  {
    if IsDir(fs, p) then Failure(Unexpected(OsError(p))) else Success(fs[p := File(Zip(entries))])
  }

  /** `os.remove(p)`: deletes a file; raises for a directory or a missing path. */
  function Remove(fs: FileSystem, p: Path): (r: Result<FileSystem>)
    ensures r.Success? <==> IsFile(fs, p)
    ensures r.Success? ==> p !in r.value && OnlyChanged(fs, r.value, p, p)
  {
    if IsFile(fs, p) then Success(fs - {p}) else Failure(Unexpected(OsError(p)))
  }

  /** `os.rename(src, dst)` on POSIX: the file moves to `dst`, replacing a file
      there; raises when `src` is not a file or `dst` is a directory. */
  function Rename(fs: FileSystem, src: Path, dst: Path): (r: Result<FileSystem>)
    ensures r.Success? <==> IsFile(fs, src) && !IsDir(fs, dst)
    ensures r.Success? ==> dst in r.value && r.value[dst] == fs[src]
    ensures r.Success? && src != dst ==> src !in r.value
    ensures r.Success? ==> OnlyChanged(fs, r.value, src, dst)
    ensures r.Failure? ==> r.error == Unexpected(OsError(src))
  {
    if !IsFile(fs, src) || IsDir(fs, dst) then Failure(Unexpected(OsError(src)))
    else if src == dst then Success(fs)
    else Success((fs - {src})[dst := fs[src]])
  }
}

=== FILE: images.dfy ===
/**
 Page images as far as the resizer cares about them: their dimensions, the
 bounding box chosen for them, and the "thumbnail" shrink that fits them into
 that box without ever enlarging them.

 The image library chooses the new size in floating point; here the same
 choice is made on exact integers: the bound side takes the bound, and the
 other side is the floor or the ceiling of its exact scaled length, picked
 by the library's nearness key.
 */
module Images {

  /** A positive pixel count: decoded rasters and configured bounds are never empty. */
  type Pixels = n: int | 1 <= n witness 1

  datatype Dims = Dims(width: Pixels, height: Pixels)

  /** The largest size a page may keep. */
  datatype Box = Box(width: Pixels, height: Pixels)

  /** One box for wide pages and one for all others. */
  datatype Bounds = Bounds(landscape: Box, portrait: Box)

  /** The program builds each box as a square from one configured integer. */
  function SquareBounds(landscapeSide: Pixels, portraitSide: Pixels): (b: Bounds)
    ensures b.landscape.width == b.landscape.height == landscapeSide
    ensures b.portrait.width == b.portrait.height == portraitSide
  {
    Bounds(Box(landscapeSide, landscapeSide), Box(portraitSide, portraitSide))
  }

  predicate Fits(d: Dims, box: Box) {
    d.width <= box.width && d.height <= box.height
  }

  /** Wider-than-tall pages take the landscape box; square and tall pages the portrait box. */
  function ChooseBox(d: Dims, b: Bounds): Box {
    if d.width > d.height then b.landscape else b.portrait
  }

  function Max(a: int, b: int): int {
    if a < b then b else a
  }

  function Abs(a: int): int {
    if a < 0 then -a else a
  }

  function AtLeastOne(n: int): Pixels {
    if n < 1 then 1 else n
  }

  /** `q * d <= n < (q + 1) * d` for the floor quotient `q` of non-negative `n`. */
  lemma FloorDiv(n: int, d: int)
    requires 0 <= n && 0 < d
    ensures 0 <= n / d
    ensures (n / d) * d <= n < (n / d) * d + d
  {
  }

  lemma MulLe(a: int, b: int, c: int)
    ensures a <= b && 0 <= c ==> a * c <= b * c
  {
  }

  lemma MulLt(a: int, b: int, c: int)
    ensures a < b && 0 < c ==> a * c < b * c
  {
  }

  /** `c` pixels along a side of length `g` stand for the exact value `n / g`
      to within one pixel. */
  predicate Near(c: int, n: int, g: int) {
    Abs(c * g - n) < g
  }

  /** The two integers around `n / g`: its floor and its ceiling. */
  lemma FloorAndCeiling(n: int, g: int, lo: int, hi: int)
    requires 1 <= n && 1 <= g && lo == n / g
    requires hi == if lo * g == n then lo else lo + 1
    ensures 0 <= lo && Near(lo, n, g) && Near(hi, n, g) && Near(AtLeastOne(lo), n, g)
    ensures lo * g <= n <= hi * g
  {
    FloorDiv(n, g);
    assert (lo + 1) * g == lo * g + g;
    if lo == 0 {
      assert AtLeastOne(lo) * g == g;
    }
  }

  /** The image library's `round_aspect` when the height is fixed: its key
      compares `n / g` with each candidate directly, so the result is the
      floor or the ceiling of `n / g`, whichever is nearer, the floor on a
      tie, and never less than one pixel. */
  function RoundNearer(n: int, g: int): (c: Pixels)
    requires 1 <= n && 1 <= g
    ensures Near(c, n, g)
  {
    var lo := n / g;
    var hi := if lo * g == n then lo else lo + 1;
    FloorAndCeiling(n, g, lo, hi);
    AtLeastOne(if Abs(hi * g - n) < Abs(lo * g - n) then hi else lo)
  }

  /** The image library's `round_aspect` when the width is fixed: its key
      compares the page's ratio with the ratio each candidate height `k`
      gives, which weighs the distance of `k` from `n / g` by `1 / k`. Of the
      floor and the ceiling of `n / g` the one with the smaller key wins, the
      floor on a tie; a zero floor has key zero and becomes one pixel. */
  function RoundByRatio(n: int, g: int): (c: Pixels)
    requires 1 <= n && 1 <= g
    ensures Near(c, n, g)
  {
    var lo := n / g;
    var hi := if lo * g == n then lo else lo + 1;
    FloorAndCeiling(n, g, lo, hi);
    AtLeastOne(if lo != 0 && Abs(hi * g - n) * lo < Abs(lo * g - n) * hi then hi else lo)
  }

  /** No positive side length is nearer to `n / g` than the one `RoundNearer`
      picks. */
  lemma RoundNearerIsNearest(n: int, g: int, k: int)
    requires 1 <= n && 1 <= g && 1 <= k
    ensures Abs(RoundNearer(n, g) * g - n) <= Abs(k * g - n)
  {
    var lo := n / g;
    var hi := if lo * g == n then lo else lo + 1;
    FloorAndCeiling(n, g, lo, hi);
    if k <= lo {
      MulLe(k, lo, g);
    } else {
      MulLe(hi, k, g);
      if lo == 0 {
        assert hi == 1;
      }
    }
  }

  /** No positive side length `k` gives a ratio `n / k` nearer to `g` than the
      one `RoundByRatio` picks: `|g - n / c| <= |g - n / k|`, multiplied out. */
  lemma RoundByRatioIsNearest(n: int, g: int, k: int)
    requires 1 <= n && 1 <= g && 1 <= k
    ensures Abs(RoundByRatio(n, g) * g - n) * k <= Abs(k * g - n) * RoundByRatio(n, g)
  {
    var lo := n / g;
    var hi := if lo * g == n then lo else lo + 1;
    FloorAndCeiling(n, g, lo, hi);
    var c := RoundByRatio(n, g);
    if lo == 0 {
      assert hi == 1 && c == 1;
      AboveCeiling(n, g, hi, k);
    } else if c == hi {
      if k <= lo {
        BelowFloor(n, g, lo, k);
        if hi != lo {
          RatioTrans(Abs(hi * g - n), hi, Abs(lo * g - n), lo, Abs(k * g - n), k);
        }
      } else {
        AboveCeiling(n, g, hi, k);
      }
    } else {
      assert c == lo;
      if k <= lo {
        BelowFloor(n, g, lo, k);
      } else {
        AboveCeiling(n, g, hi, k);
        RatioTrans(Abs(lo * g - n), lo, Abs(hi * g - n), hi, Abs(k * g - n), k);
      }
    }
  }

  /** Below the floor, the ratio only moves further away. */
  lemma BelowFloor(n: int, g: int, lo: int, k: int)
    requires 1 <= g && 1 <= k <= lo && lo * g <= n
    ensures Abs(lo * g - n) * k <= Abs(k * g - n) * lo
  {
    MulLe(k, lo, g);
    MulLe(k, lo, n);
    assert (n - lo * g) * k == n * k - lo * g * k;
    assert (n - k * g) * lo == n * lo - k * g * lo;
  }

  /** Above the ceiling, the ratio only moves further away. */
  lemma AboveCeiling(n: int, g: int, hi: int, k: int)
    requires 1 <= n && 1 <= g && 1 <= hi <= k && n <= hi * g
    ensures Abs(hi * g - n) * k <= Abs(k * g - n) * hi
  {
    MulLe(hi, k, g);
    MulLe(hi, k, n);
    assert Abs(hi * g - n) == hi * g - n && Abs(k * g - n) == k * g - n;
    assert (hi * g - n) * k == hi * g * k - n * k;
    assert (k * g - n) * hi == k * g * hi - n * hi;
    assert hi * g * k == k * g * hi;
    assert hi * n == n * hi && k * n == n * k;
  }

  /** Comparing fractions with positive denominators is transitive:
      `a / p <= b / q <= c / r` gives `a / p <= c / r`. */
  lemma RatioTrans(a: int, p: int, b: int, q: int, c: int, r: int)
    requires 1 <= p && 1 <= q && 1 <= r
    requires a * q <= b * p && b * r <= c * q
    ensures a * r <= c * p
  {
    MulLe(a * q, b * p, r);
    MulLe(b * r, c * q, p);
    assert a * q * r == (a * r) * q && b * p * r == b * r * p && c * q * p == (c * p) * q;
    MulLt(c * p, a * r, q);
  }

  /** The arithmetic of one shrink, with `g` the side whose bound `bg` binds
      and `f` the other side with bound `bf`: when `g`'s bound is the tighter
      one relative to the page (`f * bg <= bf * g`) and the page does not fit,
      `g` exceeds its bound, and any positive `c` within one pixel of the
      other side scaled by `bg / g` fits both that side and its bound. */
  lemma ScaleSide(f: int, g: int, bf: int, bg: int, c: int)
    requires 1 <= f && 1 <= g && 1 <= bf && 1 <= bg
    requires f * bg <= bf * g
    requires !(f <= bf && g <= bg)
    requires 1 <= c && Near(c, bg * f, g)
    ensures bg < g
    ensures c <= f && c <= bf
  {
    BoundExceeded(f, g, bf, bg);
    assert c * g < bg * f + g;
    MulLe(bg, g, f);
    BelowNextMultiple(c, g, f);
    assert bg * f == f * bg;
    BelowNextMultiple(c, g, bf);
  }

  /** A multiple of `g` below the next multiple after `m * g` has factor at most `m`. */
  lemma BelowNextMultiple(c: int, g: int, m: int)
    requires 1 <= g && c * g < m * g + g
    ensures c <= m
  {
    MulLe(m + 1, c, g);
    assert (m + 1) * g == m * g + g;
  }

  /** A page no taller than its bound would have to overflow the other one,
      and then that other bound would be the tighter. */
  lemma BoundExceeded(f: int, g: int, bf: int, bg: int)
    requires 1 <= f && 1 <= g && 1 <= bf && 1 <= bg
    requires f * bg <= bf * g
    requires !(f <= bf && g <= bg)
    ensures bg < g
  {
    MulLe(g, bg, bf);
    MulLt(bf, f, bg);
  }

  /** The product of two pixel counts is a pixel count. */
  lemma PositiveProduct(a: Pixels, b: Pixels)
    ensures 1 <= a * b
  {
    MulLe(1, a, b);
  }

  /** Shrinks `d` into `box`, keeping its aspect ratio, or leaves it alone when
      it already fits, as the image library's `thumbnail` does. The side whose
      bound is tighter relative to the page becomes exactly that bound and the
      other side is scaled down and rounded to a whole pixel count, never
      below one. */
  function Thumbnail(d: Dims, box: Box): (r: Dims)
    ensures r.width <= d.width && r.height <= d.height
    ensures Fits(r, box)
    ensures Fits(d, box) ==> r == d
    ensures !Fits(d, box) ==> r.width == box.width || r.height == box.height
    ensures Abs(r.width * d.height - r.height * d.width) < Max(d.width, d.height)
  {
    if Fits(d, box) then d
    else if box.width * d.height >= d.width * box.height then
      ScaleToHeight(d, box)
    else
      ScaleToWidth(d, box)
  }

  /** The height bound binds: the new height is the bound, and the width is
      the whole number nearest to the scaled width. */
  function ScaleToHeight(d: Dims, box: Box): (r: Dims)
    requires !Fits(d, box)
    requires box.width * d.height >= d.width * box.height
    ensures r.height == box.height
    ensures r.width <= d.width && r.height <= d.height && Fits(r, box)
    ensures Abs(r.width * d.height - r.height * d.width) < d.height
    ensures forall k: int :: 1 <= k ==>
              Abs(r.width * d.height - box.height * d.width) <= Abs(k * d.height - box.height * d.width)
  {
    PositiveProduct(box.height, d.width);
    var w := RoundNearer(box.height * d.width, d.height);
    ScaleSide(d.width, d.height, box.width, box.height, w);
    forall k: int | 1 <= k
      ensures Abs(w * d.height - box.height * d.width) <= Abs(k * d.height - box.height * d.width)
    {
      RoundNearerIsNearest(box.height * d.width, d.height, k);
    }
    Dims(w, box.height)
  }

  /** The width bound binds: the new width is the bound, and the height is
      whichever of the two whole numbers around the scaled height gives the
      ratio nearer to the page's. */
  function ScaleToWidth(d: Dims, box: Box): (r: Dims)
    requires !Fits(d, box)
    requires box.width * d.height < d.width * box.height
    ensures r.width == box.width
    ensures r.width <= d.width && r.height <= d.height && Fits(r, box)
    ensures Abs(r.width * d.height - r.height * d.width) < d.width
    ensures forall k: int :: 1 <= k ==>
              Abs(r.height * d.width - box.width * d.height) * k <= Abs(k * d.width - box.width * d.height) * r.height
  {
    PositiveProduct(box.width, d.height);
    var h := RoundByRatio(box.width * d.height, d.width);
    ScaleSide(d.height, d.width, box.height, box.width, h);
    forall k: int | 1 <= k
      ensures Abs(h * d.width - box.width * d.height) * k <= Abs(k * d.width - box.width * d.height) * h
    {
      RoundByRatioIsNearest(box.width * d.height, d.width, k);
    }
    Dims(box.width, h)
  }

  /** The size a page ends up with: shrunk into the box its orientation selects. */
  function NewSize(d: Dims, b: Bounds): (r: Dims)
    ensures r.width <= d.width && r.height <= d.height
    ensures d.width > d.height ==> Fits(r, b.landscape) && (Fits(d, b.landscape) ==> r == d)
    ensures d.width <= d.height ==> Fits(r, b.portrait) && (Fits(d, b.portrait) ==> r == d)
  {
    Thumbnail(d, ChooseBox(d, b))
  }

  /** With a 1366 landscape square and a 1080 portrait square: a 2000x1500
      page shrinks to 1366x1025 (the exact height is 1024.5, and 1025 gives the
      ratio nearer to 4:3), an 800x1200 page (taller than 1080) shrinks to
      720x1080, and a 1000x1000 square page counts as portrait and fits. */
  lemma ScenarioSizes()
    ensures NewSize(Dims(2000, 1500), SquareBounds(1366, 1080)) == Dims(1366, 1025)
    ensures NewSize(Dims(800, 1200), SquareBounds(1366, 1080)) == Dims(720, 1080)
    ensures NewSize(Dims(1000, 1000), SquareBounds(900, 1080)) == Dims(1000, 1000)
  {
    assert 1366 * 1500 / 2000 == 1024;
    assert Abs(1025 * 2000 - 1366 * 1500) * 1024 < Abs(1024 * 2000 - 1366 * 1500) * 1025;
    assert 1080 * 800 / 1200 == 720;
  }
}

=== FILE: paths.dfy ===
/**
 The POSIX path helpers the resizer relies on: `splitext`, `basename`,
 the head of `split`, two-argument `join`, and the string tests
 `str.lower`, `str.startswith` and `str.endswith`.
 */
module Paths {

  type Path = string

  /** Index of the last `c` in `s`, or -1 when there is none (`str.rfind`). */
  function RFind(s: string, c: char): (i: int)
    ensures -1 <= i < |s|
    ensures 0 <= i ==> s[i] == c
  {
    LastBefore(s, c, |s|)
  }

  /** Index of the last `c` among the first `n` characters of `s`, or -1. */
  function LastBefore(s: string, c: char, n: nat): (i: int)
    requires n <= |s|
    ensures -1 <= i < n
    ensures 0 <= i ==> s[i] == c
  {
    if n == 0 then -1
    else if s[n - 1] == c then n - 1
    else LastBefore(s, c, n - 1)
  }

  /** No `c` follows the index `LastBefore` returns, up to `n`. */
  lemma {:induction false} LastBeforeIsLast(s: string, c: char, n: nat)
    requires n <= |s|
    ensures forall j :: LastBefore(s, c, n) < j < n ==> s[j] != c
  {
    if n > 0 && s[n - 1] != c {
      LastBeforeIsLast(s, c, n - 1);
    }
  }

  /** No `c` follows the index `RFind` returns. */
  lemma RFindIsLast(s: string, c: char)
    ensures forall j :: RFind(s, c) < j < |s| ==> s[j] != c
  {
    LastBeforeIsLast(s, c, |s|);
  }

  /** Any index with the properties of `RFind` is the one `RFind` returns. */
  lemma RFindUnique(s: string, c: char, i: int)
    requires -1 <= i < |s|
    requires 0 <= i ==> s[i] == c
    requires forall j :: i < j < |s| ==> s[j] != c
    ensures RFind(s, c) == i
  {
    RFindIsLast(s, c);
  }

  /** Appending text free of `c` does not move the last `c`. */
  lemma RFindAppend(x: string, y: string, c: char)
    requires c !in y
    ensures RFind(x + y, c) == RFind(x, c)
  {
    var k := RFind(x, c);
    RFindIsLast(x, c);
    forall j | k < j < |x + y|
      ensures (x + y)[j] != c
    {
      if j >= |x| {
        assert (x + y)[j] == y[j - |x|];
      }
    }
    RFindUnique(x + y, c, k);
  }

  predicate StartsWith(s: string, prefix: string) {
    |prefix| <= |s| && s[..|prefix|] == prefix
  }

  predicate EndsWith(s: string, suffix: string) {
    |suffix| <= |s| && s[|s| - |suffix|..] == suffix
  }

  lemma EndsWithAppend(x: string, y: string)
    ensures EndsWith(x + y, y)
  {
    assert (x + y)[|x + y| - |y|..] == y;
  }

  lemma EndsWithTrans(a: string, b: string, c: string)
    ensures EndsWith(a, b) && EndsWith(b, c) ==> EndsWith(a, c)
  {
    if EndsWith(a, b) && EndsWith(b, c) {
      assert a[|a| - |c|..] == b[|b| - |c|..];
    }
  }

  /** A suffix without `/` survives into the base name. */
  lemma SuffixSurvivesBasename(x: Path, ext: string, suffix: string)
    requires '/' !in suffix
    ensures EndsWith(ext, suffix) ==> EndsWith(x + ext, suffix) && EndsWith(Basename(x + ext), suffix)
  {
    if EndsWith(ext, suffix) {
      var stem := x + ext[..|ext| - |suffix|];
      assert x + ext == stem + suffix;
      EndsWithAppend(stem, suffix);
      BasenameAppend(stem, suffix);
      EndsWithAppend(Basename(stem), suffix);
    }
  }

  /** ASCII case folding. Python's `str.lower` also folds non-ASCII letters,
      but none of them folds to exactly the ASCII text of an extension this
      program compares against. */
  function LowerChar(c: char): char {
    if 'A' <= c <= 'Z' then (c as int - 'A' as int + 'a' as int) as char else c
  }

  /** ASCII `str.lower`: the same length, each character folded on its own. */
  function Lower(s: string): (r: string)
    ensures |r| == |s|
    ensures forall i :: 0 <= i < |s| ==> r[i] == LowerChar(s[i])
  {
    if s == [] then []
    else
      var rest := Lower(s[1..]);
      var r := [LowerChar(s[0])] + rest;
      forall i | 1 <= i < |s|
        ensures r[i] == LowerChar(s[i])
      {
        assert r[i] == rest[i - 1] && s[1..][i - 1] == s[i];
      }
      r
  }

  /** Every character of `p` from `lo` up to `hi` is a `.`. */
  predicate DotsOnly(p: string, lo: int, hi: int) {
    forall j :: lo <= j < hi && 0 <= j < |p| ==> p[j] == '.'
  }

  /** `os.path.splitext`: the extension is everything from the last `.` of
      the final path component, unless only dots precede that `.` in the
      component (a hidden file such as `.cbz` has no extension). */
  function SplitExt(p: Path): (Path, string) {
    var sep := RFind(p, '/');
    var dot := RFind(p, '.');
    if dot > sep && !DotsOnly(p, sep + 1, dot) then (p[..dot], p[dot..]) else (p, [])
  }

  /** The two halves of `splitext` put back together give the path; a
      non-empty extension is a single `.` followed by neither `.` nor `/`,
      and the final component has something other than dots before it. */
  lemma SplitExtShape(p: Path)
    ensures SplitExt(p).0 + SplitExt(p).1 == p
    ensures var ext := SplitExt(p).1;
            ext != [] ==> ext[0] == '.' && '.' !in ext[1..] && '/' !in ext
    ensures var root := SplitExt(p).0;
            SplitExt(p).1 != [] ==> RFind(p, '/') < |root| && !DotsOnly(p, RFind(p, '/') + 1, |root|)
    ensures SplitExt(p).1 == [] ==>
              RFind(p, '.') <= RFind(p, '/') || DotsOnly(p, RFind(p, '/') + 1, RFind(p, '.'))
  {
    var sep := RFind(p, '/');
    var dot := RFind(p, '.');
    if dot > sep && !DotsOnly(p, sep + 1, dot) {
      SplitAtDot(p, sep, dot);
    } else {
      assert SplitExt(p) == (p, []);
      assert p + [] == p;
    }
  }

  /** `splitext` finds an extension exactly when the final component holds a
      `.` with something other than a dot somewhere before it. */
  lemma SplitExtFound(p: Path)
    ensures SplitExt(p).1 != [] <==>
              exists i, j :: RFind(p, '/') < j < i < |p| && p[i] == '.' && p[j] != '.'
  {
    var sep := RFind(p, '/');
    var dot := RFind(p, '.');
    RFindIsLast(p, '.');
    if SplitExt(p).1 != [] {
      var j :| sep + 1 <= j < dot && 0 <= j < |p| && p[j] != '.';
      assert sep < j < dot < |p| && p[dot] == '.' && p[j] != '.';
    }
    if exists i, j :: sep < j < i < |p| && p[i] == '.' && p[j] != '.' {
      var i, j :| sep < j < i < |p| && p[i] == '.' && p[j] != '.';
      assert i <= dot;
      assert !DotsOnly(p, sep + 1, dot);
    }
  }

  /** The case where `splitext` finds an extension. */
  lemma SplitAtDot(p: Path, sep: int, dot: int)
    requires sep == RFind(p, '/') && dot == RFind(p, '.')
    requires dot > sep && !DotsOnly(p, sep + 1, dot)
    ensures SplitExt(p) == (p[..dot], p[dot..])
    ensures p[..dot] + p[dot..] == p
    ensures p[dot..][0] == '.' && '.' !in p[dot..][1..] && '/' !in p[dot..]
  {
    assert p[..dot] + p[dot..] == p;
    ExtAfterLastDot(p, dot);
  }

  /** The text from the last `.` on holds no other `.`, and no `/` when that
      `.` comes after the last `/`. */
  lemma ExtAfterLastDot(p: Path, dot: int)
    requires dot == RFind(p, '.') && RFind(p, '/') < dot
    ensures p[dot..][0] == '.' && '.' !in p[dot..][1..] && '/' !in p[dot..]
  {
    var ext := p[dot..];
    RFindIsLast(p, '.');
    RFindIsLast(p, '/');
    forall j | 0 <= j < |ext|
      ensures ext[j] != '/'
      ensures 0 < j ==> ext[j] != '.'
    {
      assert ext[j] == p[dot + j];
    }
  }

  /** `splitext` on typical names: only the last extension is split off and
      its case is kept. */
  lemma SplitExtExamples()
    ensures SplitExt("a/b.cbz") == ("a/b", ".cbz")
    ensures SplitExt("1.JPG") == ("1", ".JPG")
    ensures SplitExt("x.y.gif") == ("x.y", ".gif")
  {
    RFindUnique("a/b.cbz", '/', 1);
    RFindUnique("a/b.cbz", '.', 3);
    assert "a/b.cbz"[2] != '.' && "a/b.cbz"[..3] == "a/b" && "a/b.cbz"[3..] == ".cbz";
    RFindUnique("1.JPG", '/', -1);
    RFindUnique("1.JPG", '.', 1);
    assert "1.JPG"[0] != '.' && "1.JPG"[..1] == "1" && "1.JPG"[1..] == ".JPG";
    RFindUnique("x.y.gif", '/', -1);
    RFindUnique("x.y.gif", '.', 3);
    assert "x.y.gif"[0] != '.' && "x.y.gif"[..3] == "x.y" && "x.y.gif"[3..] == ".gif";
  }

  /** A hidden file and a dot in a directory name give no extension. */
  lemma NoExtExamples()
    ensures SplitExt("a/.cbz") == ("a/.cbz", "")
    ensures SplitExt("v.2/p") == ("v.2/p", "")
  {
    RFindUnique("a/.cbz", '/', 1);
    RFindUnique("a/.cbz", '.', 2);
    RFindUnique("v.2/p", '/', 3);
    RFindUnique("v.2/p", '.', 1);
  }

  function Ext(p: Path): string {
    SplitExt(p).1
  }

  /** Lower-casing a path lower-cases its extension, which stays at its end. */
  lemma LowerExtIsSuffix(p: Path)
    ensures EndsWith(Lower(p), Lower(Ext(p)))
  {
    var ext := Ext(p);
    var n := |p| - |ext|;
    assert p[n..] == ext by {
      SplitExtShape(p);
      assert StripExt(p) + ext == p;
    }
    var l := Lower(p);
    var le := Lower(ext);
    forall j | 0 <= j < |le|
      ensures l[n + j] == le[j]
    {
      assert p[n + j] == ext[j];
    }
    assert l[n..] == le;
  }

  /** The path without its extension (the `root` half of `splitext`). */
  function StripExt(p: Path): Path {
    SplitExt(p).0
  }

  /** `os.path.basename`: the text after the last `/`. */
  function Basename(p: Path): (b: Path)
    ensures '/' !in b
    ensures EndsWith(p, b)
  {
    var k := RFind(p, '/') + 1;
    var b := p[k..];
    RFindIsLast(p, '/');
    assert forall j :: 0 <= j < |b| ==> b[j] == p[k + j];
    b
  }

  lemma BasenameAppend(x: Path, y: string)
    ensures '/' !in y ==> Basename(x + y) == Basename(x) + y
  {
    if '/' !in y {
      RFindAppend(x, y, '/');
      var k := RFind(x, '/') + 1;
      assert (x + y)[k..] == x[k..] + y;
    }
  }

  predicate AllSlashes(s: string) {
    forall j :: 0 <= j < |s| ==> s[j] == '/'
  }

  function RStripSlashes(s: string): (r: string)
    ensures |r| <= |s|
    ensures 0 < |s| && s[|s| - 1] == '/' ==> |r| < |s|
    ensures StartsWith(s, r)
    ensures forall j :: |r| <= j < |s| ==> s[j] == '/'
    ensures r == [] || r[|r| - 1] != '/'
  {
    if 0 < |s| && s[|s| - 1] == '/' then RStripSlashes(s[..|s| - 1]) else s
  }

  /** What makes `h` the directory half of `p`: a prefix of `p` reaching at
      most to its last `/`, followed there only by slashes, and ending in
      something other than `/` unless it is made of slashes and reaches that
      last `/`. Exactly one `h` has these properties (`DirectoryHalfIsUnique`). */
  predicate IsDirectoryHalf(p: Path, h: Path) {
    && StartsWith(p, h)
    && |h| <= RFind(p, '/') + 1
    && (forall j :: |h| <= j <= RFind(p, '/') ==> p[j] == '/')
    && (AllSlashes(h) || h[|h| - 1] != '/')
    && (AllSlashes(h) ==> |h| == RFind(p, '/') + 1)
  }

  /** The directory half of `os.path.split`: everything up to the last `/`,
      with trailing slashes removed unless it consists of slashes only. */
  function Head(p: Path): (h: Path)
    ensures |h| <= |p|
    ensures IsDirectoryHalf(p, h)
  {
    var head := p[..RFind(p, '/') + 1];
    if AllSlashes(head) then head else RStripSlashes(head)
  }

  /** The directory half of a path that is not made of slashes only is
      strictly shorter than the path, so it is never the path itself. */
  lemma HeadShorter(p: Path)
    ensures !AllSlashes(p) ==> |Head(p)| < |p|
  {
    var i := RFind(p, '/') + 1;
    var head := p[..i];
    if !AllSlashes(head) {
      assert head[i - 1] == '/';
    }
  }

  /** Two-argument `os.path.join`. */
  function Join(a: Path, b: Path): (r: Path)
    ensures !StartsWith(b, "/") ==> StartsWith(r, a) && EndsWith(r, b)
    ensures !StartsWith(b, "/") && '/' !in b ==> Basename(r) == b
  {
    if StartsWith(b, "/") then b
    else if a == [] || EndsWith(a, "/") then
      EndsWithAppend(a, b);
      BasenameAppend(a, b);
      assert (a + b)[..|a|] == a;
      a + b
    else
      EndsWithAppend(a + "/", b);
      BasenameAppend(a + "/", b);
      assert (a + "/" + b)[..|a|] == a;
      a + "/" + b
  }

  /** The directory half of a file joined onto a directory is that directory,
      when the directory has no trailing `/` and the name holds no `/`. */
  lemma HeadOfJoin(d: Path, b: Path)
    requires d != [] && d[|d| - 1] != '/' && '/' !in b
    ensures Head(Join(d, b)) == d
  {
    var p := d + "/" + b;
    assert !StartsWith(b, "/") by {
      if |b| > 0 {
        assert b[0] in b;
      }
    }
    assert !EndsWith(d, "/") by {
      assert d[|d| - 1..] == [d[|d| - 1]];
    }
    assert Join(d, b) == p;
    RFindAppend(d + "/", b, '/');
    RFindUnique(d + "/", '/', |d|);
    assert p[..|d| + 1] == d + "/";
    assert RStripSlashes(d + "/") == RStripSlashes(d) by {
      assert (d + "/")[..|d|] == d;
    }
  }

  /** At most one text is the directory half of a path, so `Head` is pinned by
      its contract. */
  lemma DirectoryHalfIsUnique(p: Path, h: Path)
    ensures IsDirectoryHalf(p, h) ==> h == Head(p)
  {
    var g := Head(p);
    if IsDirectoryHalf(p, h) {
      forall j | 0 <= j < |h| && j < |g|
        ensures h[j] == g[j]
      {
        assert h[j] == p[j] == g[j];
      }
    }
  }
}

=== FILE: publisher.dfy ===
/**
 Publishing one resized archive: write it to a temporary sibling of the
 output path and move it onto the output path only once every entry has been
 written and the archive closed.

 A `ValueError` raised inside is logged and swallowed, with no cleanup. One
 raised by the entry loop (an unsupported entry, or page data the image
 library refuses) leaves the partly written temporary file behind; one raised
 while opening the source (an undecodable entry name) comes before the
 temporary file is opened and leaves everything but the output's directory
 as it was. Any other
 exception is logged, the temporary file and the output path are removed if
 they exist, and the exception escapes.
 */
module Publisher {
  import opened Errors
  import opened Paths
  import opened Images
  import opened Archives
  import opened FileSystems

  /** The resolved configuration section the program reads its settings from. */
  datatype Config = Config(
    outputDirectory: string,
    resizeLandscape: Pixels,
    resizePortrait: Pixels,
    resizedFileExt: string)

  function BoundsOf(cfg: Config): Bounds {
    SquareBounds(cfg.resizeLandscape, cfg.resizePortrait)
  }

  /** The fixed token appended to the output path to name the temporary archive. */
  const TempSuffix: string := ".0bd15818604b995cd9c00825a4c692d5d.temp"

  /** The temporary archive's path: named after the output, yet never the
      output path itself, nor its directory, nor any path ending with `.cbz`,
      so neither input nor output can be mistaken for it. */
  function TempPath(output: Path): (t: Path)
    ensures StartsWith(t, output)
    ensures t != output && t != Head(output)
    ensures !EndsWith(t, ".cbz")
  {
    var t := output + TempSuffix;
    assert t[..|output|] == output;
    assert t[|t| - 4..] == "temp";
    t
  }

  /** One line of the error log: the input it is about and what was raised. */
  datatype LogLine = LogLine(path: Path, error: Error)

  /** The file system after a step, the lines it logged, and the exception
      that escapes it, if any. */
  datatype Report = Report(fs: FileSystem, log: seq<LogLine>, raised: Option<Error>)

  /** The state reached when the `try` block ends, normally or by an exception. */
  datatype Attempt = Attempt(fs: FileSystem, error: Option<Error>)

  /** The node a complete run over the archive at `input` publishes. */
  predicate PublishedFrom(fs: FileSystem, input: Path, bounds: Bounds, node: Node) {
    var source := ReadZip(fs, input);
    source.Success? && Resize(source.value, bounds).failure.None? &&
    node == File(Zip(Resize(source.value, bounds).written))
  }

  /** The `try` block: create the output's directory if needed, open the source
      archive, write the temporary archive through the entry loop, and rename it
      onto the output path once it is closed. */
  function TryPublish(fs: FileSystem, input: Path, output: Path, bounds: Bounds): (a: Attempt)
    ensures a.error.None? ==>
              output in a.fs && PublishedFrom(fs, input, bounds, a.fs[output]) &&
              TempPath(output) !in a.fs
    ensures a.error.Some? && a.error.value.ValueError? ==>
              IsEntryRejection(a.error.value) || a.error.value == ValueError(BadEntryName(input))
    ensures a.error.Some? ==> !IsCleanupFault(a.error.value)
    ensures a.error.Some? && IsEntryRejection(a.error.value) ==>
              var source := ReadZip(fs, input);
              source.Success? && Resize(source.value, bounds).failure == a.error &&
              TempPath(output) in a.fs &&
              a.fs[TempPath(output)] == File(Zip(Resize(source.value, bounds).written))
    ensures a.error == Some(ValueError(BadEntryName(input))) ==>
              ReadZip(fs, input) == Failure(ValueError(BadEntryName(input))) &&
              OnlyChanged(fs, a.fs, Head(output), Head(output))
    ensures a.error.Some? && a.error.value.ValueError? && Head(output) != [] ==> IsDir(a.fs, Head(output))
    ensures a.error.Some? && !AllSlashes(output) ==> SameAt(fs, a.fs, output)
    ensures OnlyChangedOrCreated(fs, a.fs, TempPath(output), output, Head(output))
    ensures forall p :: IsDir(a.fs, p) ==> IsDir(fs, p) || p == Head(output)
  {
    HeadShorter(output);
    var made := MakeOutputDirectory(fs, output);
    if made.Failure? then Attempt(fs, Some(made.error))
    else
      assert ReadZip(made.value, input) == ReadZip(fs, input);
      var a := WriteAndMove(made.value, input, output, bounds);
      CreatedThenChanged(fs, made.value, a.fs, TempPath(output), output, Head(output));
      a
  }

  /** The first statement of the `try` block: the output's directory is created
      when it is named and missing; a non-directory in its place makes that fail. */
  function MakeOutputDirectory(fs: FileSystem, output: Path): (r: Result<FileSystem>)
    ensures r.Success? <==> Head(output) == [] || IsDir(fs, Head(output)) || Head(output) !in fs
    ensures r.Success? && Head(output) != [] ==> IsDir(r.value, Head(output))
    ensures r.Success? ==> OnlyChanged(fs, r.value, Head(output), Head(output))
    ensures r.Success? && Head(output) in fs ==> r.value == fs
    ensures r.Failure? ==> r.error == Unexpected(OsError(Head(output)))
  {
    var dir := Head(output);
    if dir != [] && !IsDir(fs, dir) then MakeDirs(fs, dir) else Success(fs)
  }

  /** The rest of the `try` block, once the directory exists: only the
      temporary path and the output path can change, and only to files. */
  function WriteAndMove(fs: FileSystem, input: Path, output: Path, bounds: Bounds): (a: Attempt)
    ensures a.error.None? ==>
              output in a.fs && PublishedFrom(fs, input, bounds, a.fs[output]) &&
              TempPath(output) !in a.fs
    ensures a.error.Some? && a.error.value.ValueError? ==>
              IsEntryRejection(a.error.value) ||
              (a.error.value == ValueError(BadEntryName(input)) && a.fs == fs &&
               ReadZip(fs, input) == Failure(a.error.value))
    ensures a.error.Some? && IsEntryRejection(a.error.value) ==>
              var source := ReadZip(fs, input);
              source.Success? && Resize(source.value, bounds).failure == a.error &&
              TempPath(output) in a.fs &&
              a.fs[TempPath(output)] == File(Zip(Resize(source.value, bounds).written))
    ensures a.error.Some? ==> SameAt(fs, a.fs, output) && !IsCleanupFault(a.error.value)
    ensures OnlyChanged(fs, a.fs, TempPath(output), output)
    ensures forall p :: IsDir(a.fs, p) ==> IsDir(fs, p)
  {
    var source := ReadZip(fs, input);
    if source.Failure? then Attempt(fs, Some(source.error))
    else WriteEntries(fs, source.value, output, bounds)
  }

  /** Writing the temporary archive from the source's entries through the
      entry loop, and renaming it onto the output path if the loop completed. */
  function WriteEntries(fs: FileSystem, entries: seq<Entry>, output: Path, bounds: Bounds): (a: Attempt)
    ensures a.error.None? ==>
              Resize(entries, bounds).failure.None? && TempPath(output) !in a.fs &&
              output in a.fs && a.fs[output] == File(Zip(Resize(entries, bounds).written))
    ensures a.error.Some? && a.error.value.ValueError? ==>
              Resize(entries, bounds).failure == a.error &&
              TempPath(output) in a.fs &&
              a.fs[TempPath(output)] == File(Zip(Resize(entries, bounds).written))
    ensures a.error.Some? ==> SameAt(fs, a.fs, output) && !IsCleanupFault(a.error.value)
    ensures OnlyChanged(fs, a.fs, TempPath(output), output)
    ensures forall p :: IsDir(a.fs, p) ==> IsDir(fs, p)
  {
    var temp := TempPath(output);
    var created := WriteZip(fs, temp, []);
    if created.Failure? then Attempt(fs, Some(created.error))
    else
      var run := Resize(entries, bounds);
      var written := WriteZip(fs, temp, run.written).value;
      if run.failure.Some? then Attempt(written, run.failure)
      else
        var a := MoveIntoPlace(written, temp, output);
        OnlyChangedTrans(fs, written, a.fs, temp, output);
        a
  }

  /** The rename that publishes the closed temporary archive. */
  function MoveIntoPlace(fs: FileSystem, temp: Path, output: Path): (a: Attempt)
    requires IsFile(fs, temp) && temp != output
    ensures a.error.None? ==> temp !in a.fs && output in a.fs && a.fs[output] == fs[temp]
    ensures a.error.Some? ==> a.fs == fs && a.error.value == Unexpected(OsError(temp))
    ensures OnlyChanged(fs, a.fs, temp, output)
    ensures forall p :: IsDir(a.fs, p) ==> IsDir(fs, p)
  {
    var moved := Rename(fs, temp, output);
    if moved.Failure? then Attempt(fs, Some(moved.error)) else Attempt(moved.value, None)
  }

  /** The cleanup of the `except BaseException` branch, and the path whose
      removal raised, if one did. */
  datatype Cleaned = Cleaned(fs: FileSystem, failedAt: Option<Path>)

  /** Removes `temp` if it exists, then `output` if it exists; a removal that
      raises ends the cleanup there. */
  function Cleanup(fs: FileSystem, temp: Path, output: Path): (c: Cleaned)
    ensures c.failedAt.None? ==> temp !in c.fs && output !in c.fs
    ensures c.failedAt.Some? ==> IsDir(c.fs, c.failedAt.value) &&
                                 (c.failedAt.value == temp || c.failedAt.value == output)
    ensures !IsDir(fs, temp) && !IsDir(fs, output) ==> c.failedAt.None?
    ensures temp != output && output in c.fs ==> output in fs && c.fs[output] == fs[output]
    ensures OnlyChanged(fs, c.fs, temp, output)
  {
    if temp in fs && Remove(fs, temp).Failure? then Cleaned(fs, Some(temp))
    else
      var fs1 := if temp in fs then Remove(fs, temp).value else fs;
      if output in fs1 && Remove(fs1, output).Failure? then Cleaned(fs1, Some(output))
      else
        var fs2 := if output in fs1 then Remove(fs1, output).value else fs1;
        Cleaned(fs2, None)
  }

  /** `resizeZippedImages`: publish the resized copy of `input` at `output`.
      Only a complete run creates or changes the output path; a rejected entry
      or an archive whose names cannot be decoded is logged and leaves the
      output as it was; any other failure is logged, removes the temporary and
      the output path, and escapes. */
  function ResizeZippedImages(fs: FileSystem, input: Path, output: Path, cfg: Config): (r: Report)
    ensures r.raised.Some? ==> r.raised.value.Unexpected?
    ensures r.log == [] ==>
              r.raised.None? && TempPath(output) !in r.fs &&
              output in r.fs && PublishedFrom(fs, input, BoundsOf(cfg), r.fs[output])
    ensures r.log != [] ==> |r.log| == 1 && r.log[0].path == input
    ensures r.raised.None? && r.log != [] ==>
              r.log[0].error.ValueError? && (!AllSlashes(output) ==> SameAt(fs, r.fs, output))
    ensures r.raised.None? && r.log != [] && IsEntryRejection(r.log[0].error) ==>
              TempPath(output) in r.fs
    ensures r.raised.None? && r.log != [] && !IsEntryRejection(r.log[0].error) ==>
              r.log[0].error == ValueError(BadEntryName(input)) &&
              OnlyChanged(fs, r.fs, Head(output), Head(output))
    ensures r.raised.Some? ==> r.log != []
    ensures r.raised.Some? && r.raised == Some(r.log[0].error) ==>
              TempPath(output) !in r.fs && output !in r.fs
    ensures r.raised.Some? && r.raised != Some(r.log[0].error) ==>
              r.raised.value.fault.RemoveFailed? && IsDir(r.fs, r.raised.value.fault.path)
    ensures !AllSlashes(output) && output in r.fs && !SameAt(fs, r.fs, output) ==> r.log == []
    ensures OnlyChangedOrCreated(fs, r.fs, TempPath(output), output, Head(output))
  {
    var a := TryPublish(fs, input, output, BoundsOf(cfg));
    match a.error
    case None => Report(a.fs, [], None)
    case Some(err) =>
      var r := Recover(a.fs, input, output, err);
      CreatedThenChangedAgain(fs, a.fs, r.fs, TempPath(output), output, Head(output));
      r
  }

  /** An error only the cleanup itself raises, never the `try` block. */
  predicate IsCleanupFault(e: Error) {
    e.Unexpected? && e.fault.RemoveFailed?
  }

  /** The two `except` branches, entered with the state the `try` block left
      and the exception it raised: log the exception under `input`; swallow a
      `ValueError`; on anything else clean up and re-raise. */
  function Recover(fs: FileSystem, input: Path, output: Path, err: Error): (r: Report)
    requires !IsCleanupFault(err)
    ensures r.log == [LogLine(input, err)]
    ensures err.ValueError? ==> r.fs == fs && r.raised.None?
    ensures err.Unexpected? ==> r.raised.Some? && r.raised.value.Unexpected?
    ensures r.raised == Some(err) ==> TempPath(output) !in r.fs && output !in r.fs
    ensures r.raised.Some? && r.raised != Some(err) ==>
              r.raised.value.fault.RemoveFailed? && IsDir(r.fs, r.raised.value.fault.path)
    ensures output in r.fs ==> output in fs && r.fs[output] == fs[output]
    ensures OnlyChanged(fs, r.fs, TempPath(output), output)
  {
    if err.ValueError? then Report(fs, [LogLine(input, err)], None)
    else
      var c := Cleanup(fs, TempPath(output), output);
      var raised := if c.failedAt.Some? then Unexpected(RemoveFailed(c.failedAt.value)) else err;
      Report(c.fs, [LogLine(input, err)], Some(raised))
  }

  /** After a run that ended in a swallowed `ValueError`, running again
      changes nothing: the directory exists, the source is the same, and either
      the source is refused again when opened, or the temporary file is
      rewritten with the same entries before the same rejection. */
  lemma RejectedRunIsRepeatable(fs: FileSystem, input: Path, output: Path, cfg: Config)
    requires input != TempPath(output) && input != output
    ensures var r := ResizeZippedImages(fs, input, output, cfg);
            r.raised.None? && r.log != [] ==> ResizeZippedImages(r.fs, input, output, cfg) == r
  {
    RejectedAttemptRepeats(fs, input, output, BoundsOf(cfg));
  }

  /** The `try` block of a rejected run, started again from the state that run
      left, ends in the same state with the same rejection. */
  lemma RejectedAttemptRepeats(fs: FileSystem, input: Path, output: Path, bounds: Bounds)
    requires input != TempPath(output) && input != output
    ensures var a := TryPublish(fs, input, output, bounds);
            a.error.Some? && a.error.value.ValueError? ==> TryPublish(a.fs, input, output, bounds) == a
  {
    var a := TryPublish(fs, input, output, bounds);
    if a.error.Some? && a.error.value.ValueError? {
      var made := MakeOutputDirectory(fs, output);
      assert a == WriteAndMove(made.value, input, output, bounds);
      RejectedWriteRepeats(made.value, input, output, bounds);
      assert MakeOutputDirectory(a.fs, output) == Success(a.fs);
    }
  }

  /** The part of the `try` block after the directory step, repeated on the
      state a rejection left, ends the same way. */
  lemma RejectedWriteRepeats(fs: FileSystem, input: Path, output: Path, bounds: Bounds)
    requires input != TempPath(output) && input != output
    ensures var a := WriteAndMove(fs, input, output, bounds);
            a.error.Some? && a.error.value.ValueError? ==> WriteAndMove(a.fs, input, output, bounds) == a
  {
    var a := WriteAndMove(fs, input, output, bounds);
    if a.error.Some? && IsEntryRejection(a.error.value) {
      var temp := TempPath(output);
      var source := ReadZip(fs, input);
      var run := Resize(source.value, bounds);
      assert a.error == run.failure && a.fs[temp] == File(Zip(run.written));
      assert ReadZip(a.fs, input) == source by {
        assert IsFile(fs, input);
      }
      assert WriteZip(a.fs, temp, run.written).value == a.fs;
    }
  }

  /** When neither the temporary path nor the output path is a directory, an
      unexpected failure always completes its cleanup: the original exception
      escapes and neither path exists afterwards. */
  lemma UnexpectedFailureRemovesBoth(fs: FileSystem, input: Path, output: Path, cfg: Config)
    requires !IsDir(fs, TempPath(output)) && !IsDir(fs, output) && !AllSlashes(output)
    requires ResizeZippedImages(fs, input, output, cfg).raised.Some?
    ensures var r := ResizeZippedImages(fs, input, output, cfg);
            r.log != [] && r.raised == Some(r.log[0].error)
    ensures TempPath(output) !in ResizeZippedImages(fs, input, output, cfg).fs
    ensures output !in ResizeZippedImages(fs, input, output, cfg).fs
  {
    var a := TryPublish(fs, input, output, BoundsOf(cfg));
    HeadShorter(output);
    assert !IsDir(a.fs, TempPath(output)) && !IsDir(a.fs, output);
  }

  /** An archive whose entry `k` is the first non-image (say `page.bmp`) is
      rejected: the `ValueError` naming it is logged and swallowed, the output
      path is left as it was, and the temporary file stays behind holding the
      `k` pages resized before the rejection. */
  lemma UnsupportedEntryLeavesTemp(fs: FileSystem, input: Path, output: Path, cfg: Config, k: nat)
    requires IsFile(fs, input) && fs[input].contents.Zip?
    requires var entries := fs[input].contents.entries;
             k < |entries| && !IsImageName(entries[k].name) && AllPages(entries[..k])
    requires Head(output) == [] || IsDir(fs, Head(output)) || Head(output) !in fs
    requires !IsDir(fs, TempPath(output)) && !AllSlashes(output)
    ensures var r := ResizeZippedImages(fs, input, output, cfg);
            var entries := fs[input].contents.entries;
            && r.raised.None?
            && r.log == [LogLine(input, ValueError(UnsupportedImage(entries[k].name)))]
            && SameAt(fs, r.fs, output)
            && TempPath(output) in r.fs
            && r.fs[TempPath(output)] == File(Zip(Resize(entries, BoundsOf(cfg)).written))
            && |Resize(entries, BoundsOf(cfg)).written| == k
  {
    var entries := fs[input].contents.entries;
    FirstUnsupportedStops(entries, BoundsOf(cfg), k);
    HeadShorter(output);
    var dir := Head(output);
    var made := if dir != [] && !IsDir(fs, dir) then MakeDirs(fs, dir) else Success(fs);
    assert made.Success?;
    assert ReadZip(made.value, input) == Success(entries);
  }

  /** An archive whose entry names cannot be decoded is refused when opened:
      the `ValueError` is logged and swallowed before any temporary file is
      written, so with the output's directory in place nothing changes. */
  lemma MisencodedArchiveChangesNothing(fs: FileSystem, input: Path, output: Path, cfg: Config)
    requires IsFile(fs, input) && fs[input].contents.MisencodedNames?
    requires Head(output) == [] || IsDir(fs, Head(output))
    ensures ResizeZippedImages(fs, input, output, cfg) ==
              Report(fs, [LogLine(input, ValueError(BadEntryName(input)))], None)
  {
    assert MakeOutputDirectory(fs, output) == Success(fs);
  }
}
